=== FILE: README.md ===
# Shuffled-roles chess engine, in Dafny

This project models the rules engine of a chess variant in which the five
non-king piece types trade movement behaviours at random at the start of a
game. A knight may move like a pawn, say, and a pawn like a queen. The king
always moves as a king. The engine lives in `src/utils/chessLogic.ts`. It
builds the start position and draws the role map. It generates each piece's
moves by its role, applies moves (en passant, promotion, castling, castling
rights), detects check, filters illegal moves and decides checkmate and
stalemate.

Modules, in dependency order:

- `Results` (`results.dfy`): `Option` and `Outcome`. `Outcome.Thrown` stands
  for the `TypeError` the engine raises when a pawn-role piece stands on its
  far rank: `getPawnMoves` then reads a row outside the board.
- `Chessboard` (`chessboard.dfy`): pieces, players, positions and the 8×8
  grid. `At` is a total accessor: an off-board column reads as empty, as
  `undefined` does in the engine. The module also holds the piece count, the
  start position, `FindKing` and the castling-rights records.
- `Roles` (`roles.dfy`): the role map, the shuffle and the promotion draw.
- `Moves` (`moves.dfy`): the per-role pseudo-move generators and the
  dispatch on role (`PseudoMoves`, the engine's non-filtering mode). The
  pawn generator exists twice: `PawnMovesAsWritten` follows the engine's
  en-passant test, and `PawnMoves` corrects it (see Findings). The dispatch,
  and so everything built on it, uses the corrected one.
- `Executor` (`executor.dfy`): `MakeMove`, built from its stages.
- `Check` (`check.dfy`): `IsCheck`. It uses only `PseudoMoves`, so the
  recursion the engine breaks with its `checkForCheck` flag does not arise.
- `Legality` (`legality.dfy`): the legality filter (`LegalMoves`),
  `IsValidMove`, `HasLegalMoves`, `IsCheckmate` and `IsStalemate`.
- `EnPassant` (`enpassant.dfy`): how the generator and the executor handle
  en passant, with the discrepancy described under Findings.

The random inputs are parameters. `RandomizeRoles` takes the shuffled
sequence, and every move-applying function takes the promotion type `promo`.

## Model

| member | source | states |
|---|---|---|
| Chessboard.InitialBoard | src/utils/chessLogic.ts:3-18 | The start position is 8×8. Black's back rank is rook-knight-bishop-queen-king-bishop-knight-rook on row 0 with black pawns on row 1. White mirrors this on rows 7 and 6. Rows 2-5 are empty. |
| Chessboard.InitialSpans | src/utils/chessLogic.ts:3-18 | In row-major order the start position is 16 occupied squares, then 32 empty ones, then 16 occupied ones. |
| Chessboard.InitialCount | src/utils/chessLogic.ts:3-18 | The start position holds exactly 32 pieces. |
| Chessboard.InitialKings | src/utils/chessLogic.ts:3-18 | In the start position the king lookup finds the black king at (0, 4) and the white king at (7, 4). |
| Chessboard.Put | src/utils/chessLogic.ts:65-66 | Writing one square keeps the grid 8×8 and changes only that square. A write to an off-board column changes nothing. |
| Chessboard.CountPut | src/utils/chessLogic.ts:65-66 | Writing one square changes the piece count by the piece added minus the piece removed. |
| Chessboard.FindKing | src/utils/chessLogic.ts:351-361 | The lookup matches by nominal type. It returns the first square in row-major order holding `pl`'s king, and nothing exactly when no square holds one. |
| Chessboard.FindKingSameKings | src/utils/chessLogic.ts:351-361 | Two boards on which `pl`'s king stands on the same squares give the same lookup result. |
| Roles.RandomizeRoles | src/utils/chessLogic.ts:363-381 | Given any reordering of the five non-king types, the king keeps king movement. The i-th type of pawn, rook, knight, bishop, queen receives the i-th element of the reordering. The result is a valid role map. |
| Roles.ShuffleNoKing | src/utils/chessLogic.ts:363-381 | A reordering of the five non-king types never holds the king. |
| Roles.ShuffleDistinct | src/utils/chessLogic.ts:363-381 | A reordering of the five non-king types holds no type twice. |
| Roles.ShuffleCovers | src/utils/chessLogic.ts:363-381 | A reordering of the five non-king types holds every non-king type. |
| Roles.OnlyKingMovesAsKing | src/utils/chessLogic.ts:363-381 | Under a valid role map, a type moves as a king if and only if it is the king. |
| Roles.RolesInjective | src/utils/chessLogic.ts:363-381 | Under a valid role map, no two types share a role. |
| Roles.RolesSurjective | src/utils/chessLogic.ts:363-381 | Under a valid role map, every role is some type's role. |
| Roles.EveryValidMapIsReachable | src/utils/chessLogic.ts:363-381 | Some shuffle produces each valid role map. |
| Roles.PromotionDrawsDistinct | src/utils/chessLogic.ts:383-386 | The draw `PromotionPiece` has type `Promotion`, so it is never a pawn or a king and can be passed to `MakeMove`. Distinct indices give distinct types, so a uniform index gives a uniform type. |
| Roles.EveryPromotionIsDrawn | src/utils/chessLogic.ts:383-386 | Some draw produces each of rook, knight, bishop and queen. |
| Moves.Walk | src/utils/chessLogic.ts:229-240 | Every square a ray walk returns is on the board and not held by the mover. |
| Moves.RaysMember | src/utils/chessLogic.ts:225-241 | A square is in the concatenated rays exactly when it is on one of the rays. |
| Moves.SlidingMoves | src/utils/chessLogic.ts:216-302 | A rook or bishop move lands exactly on a square reachable along one direction across only empty squares. That square is empty or holds an opponent piece. Both directions of the equivalence are proved. |
| Moves.Leaps | src/utils/chessLogic.ts:246-272 | A knight move (and a one-step king move) lands on `from` plus one of the offsets, exactly when that square is on the board and not held by the mover. |
| Moves.GeneratedTargetsEnterable | src/utils/chessLogic.ts:216-334 | Every rook, bishop, queen, knight and king-step move lands on the board, on a square not held by the mover. |
| Moves.Castles | src/utils/chessLogic.ts:336-346 | Castling moves keep the row and move two columns. King-side castling is offered exactly when the flag is set and the next two squares read empty. Queen-side castling is offered exactly when the flag is set and the next three squares read empty. |
| Moves.PawnMovesWith | src/utils/chessLogic.ts:183-214 | Pawn moves throw exactly when the row ahead is off the board. Otherwise every move advances one or two rows in the pawn's direction and stays on the board's rows. |
| Moves.PawnMoveShapes | src/utils/chessLogic.ts:188-211 | Every pawn move is one of four shapes: a push into an empty square, a double push from the start row across two empty squares, a forward diagonal onto an opponent piece, or the en-passant step. |
| Moves.PawnMovesAsWritten | src/utils/chessLogic.ts:183-214 | The generator with the engine's en-passant test; not used by the dispatch. It throws exactly when the row ahead is off the board. A diagonal step onto an empty square is offered only when the target lies on the pawn's own row, and never onto the target itself. |
| Moves.PawnMoves | src/utils/chessLogic.ts:183-214 | The corrected generator that the dispatch uses. It throws exactly when the row ahead is off the board. Any diagonal step onto an empty square it offers lands on the en-passant target itself, from the pawn's en-passant row. |
| Moves.PawnMoveComplete | src/utils/chessLogic.ts:188-211 | Conversely, every move of one of the four shapes is generated, for any en-passant row. |
| Moves.PawnGeneratorsDiffer | src/utils/chessLogic.ts:206-211 | The as-written and corrected generators throw on the same squares. A move offered by only one of them is a step from the en-passant row onto the target's column. |
| Moves.PseudoMoves | src/utils/chessLogic.ts:146-171 | An empty square has no moves. Generation throws exactly for a pawn-role piece whose next row is off the board. Every move stays on the board's rows. Pawn-role pieces get the corrected generator. |
| Moves.RookInCorner | src/utils/chessLogic.ts:216-244 | A rook alone at (0, 0) has exactly 14 moves. |
| Moves.PseudoMovesSameHolders | src/utils/chessLogic.ts:183-349 | The generators read only whether a square is empty and whose piece it holds. Two boards that agree on that everywhere, and hold the same piece on `pos`, give it the same moves. |
| Executor.NextEnPassant | src/utils/chessLogic.ts:55-63 | A target is recorded exactly when a pawn-role piece moves two rows. The target is the midpoint in the origin's column. |
| Executor.UpdateRights | src/utils/chessLogic.ts:79-91 | Flags only go from true to false, and the opponent's flags never change. A king-role move clears both of the mover's flags. A rook-role move from column 0 clears queen-side and one from column 7 clears king-side. Any change comes from one of those moves. |
| Executor.MakeMove | src/utils/chessLogic.ts:43-94 | The result board is 8×8. |
| Executor.MakeMoveFrame | src/utils/chessLogic.ts:51-77 | The move changes no square other than `from` and `to`, the passed pawn's square (from.row, to.col) when the move is an en-passant capture, and the rook's corner and landing squares when it castles. |
| Executor.MakeMoveCount | src/utils/chessLogic.ts:51-77 | A move never increases the number of pieces. |
| Executor.MakeMoveCreatesNothing | src/utils/chessLogic.ts:51-77 | Every square of the result is empty, holds a piece already on the board, or holds the promoted piece. |
| Executor.MakeMoveAddsNoKing | src/utils/chessLogic.ts:51-77 | A move never creates a king of a player who had none. |
| Executor.MakeMoveLands | src/utils/chessLogic.ts:65-70 | Outside castling, the origin is emptied. The destination receives the moving piece, or a same-player piece of the promotion type when a pawn-role piece lands on row 0 or row 7. |
| Executor.KingSideCastle | src/utils/chessLogic.ts:72-77 | King-side castling from column 4 puts the king on column 6. The corner's content moves to column 5 and the corner is emptied. |
| Executor.PromotionChoiceLocal | src/utils/chessLogic.ts:65-70 | Two promotion choices give boards that differ at most on `to`, where each holds the mover's promoted piece. |
| Executor.QueenSideCastle | src/utils/chessLogic.ts:72-77 | Queen-side castling from column 4 puts the king on column 2. The corner's content moves to column 3 and the corner is emptied. |
| Executor.MakeMoveRights | src/utils/chessLogic.ts:79-91 | The returned rights only weaken, and the opponent's never change. A king-role move clears both of the mover's flags. A rook-role move from column 0 clears exactly the queen-side flag, and one from column 7 exactly the king-side flag. No other move changes the rights. |
| Check.AttackScanSound | src/utils/chessLogic.ts:101-112 | A true scan has found a square at or after the start index whose attacker piece's unfiltered moves include the target. A false scan has found no such square. The scan throws only when a stuck pawn-role piece of the attacker exists, and without one it always answers. |
| Check.IsCheck | src/utils/chessLogic.ts:96-113 | A player without a king on the board is never in check. Any answer equals "the king is attacked". The test throws only when the opponent has a stuck pawn-role piece, and always answers otherwise. |
| Check.IsCheckSameHolders | src/utils/chessLogic.ts:96-113 | The check test depends only on who holds each square, on the opponent's pieces and on where the player's king stands. |
| Legality.Filter | src/utils/chessLogic.ts:173-178 | The kept list is a subsequence of the input. It holds exactly the elements the test accepts. It throws exactly when one test throws. |
| Legality.FilterKeepsAll | src/utils/chessLogic.ts:173-178 | When every test accepts, the filter returns its input unchanged. |
| Legality.LegalMoves | src/utils/chessLogic.ts:138-181 | An empty square has no legal moves. The legal moves are a subsequence of the pseudo-moves. A stuck pawn-role piece throws. |
| Legality.LegalMovesMembers | src/utils/chessLogic.ts:173-178 | A move is legal exactly when it is a pseudo-move after which the mover is not in check. |
| Legality.LegalMovesThrow | src/utils/chessLogic.ts:173-178 | For a piece that is not a stuck pawn, legal-move generation throws exactly when the check test of one of its moves throws. |
| Legality.IsValidMove | src/utils/chessLogic.ts:20-41 | The answer is false when `from` is empty or holds the other player's piece. It is true exactly when `to` is among the legal moves of an own piece. So the second check test the engine runs after the membership test never changes the answer. |
| Legality.HasLegalMovesFromFound | src/utils/chessLogic.ts:123-136 | A scan from index i that answers true has found a square at or after i holding an own piece with a legal move. |
| Legality.HasLegalMovesFromNone | src/utils/chessLogic.ts:123-136 | A scan from index i that answers false has found every own piece at or after i with an empty list of legal moves. |
| Legality.HasLegalMoves | src/utils/chessLogic.ts:123-136 | True means some own piece has a legal move. False means every own piece has an empty list of legal moves. |
| Legality.PromotionChoiceIrrelevant | src/utils/chessLogic.ts:33-38 | The check test after a move by `pl` gives the same answer whichever promotion type is drawn. |
| Legality.SafetyTestPromoFree | src/utils/chessLogic.ts:174-177 | The filter's test of each single move gives the same answer for any promotion type, so drawing afresh per move changes no answer. |
| Legality.LegalMovesPromoFree | src/utils/chessLogic.ts:173-178 | The legal-move list, order included, is the same for any two promotion types. |
| Legality.FilterSameTests | src/utils/chessLogic.ts:174-177 | Two tests that agree on every element give the same filter result. |
| Legality.IsCheckmate | src/utils/chessLogic.ts:115-117 | True means in check with no legal move. False means not in check, or a legal move exists. |
| Legality.IsStalemate | src/utils/chessLogic.ts:119-121 | True means not in check with no legal move. False means in check, or a legal move exists. |
| Legality.GameEndAnswers | src/utils/chessLogic.ts:115-121 | Checkmate throws exactly when the check test throws, or when it finds check and the move search throws. Stalemate throws exactly when the check test throws, or when it finds no check and the move search throws. Otherwise both answer. |
| Legality.GameEndExclusive | src/utils/chessLogic.ts:115-136 | Checkmate and stalemate are never both true. Either one means every piece of the player has no legal move. |
| Legality.LoneRookLegalMoves | src/utils/chessLogic.ts:138-181 | A rook-role piece alone at (0, 0) has exactly 14 legal moves. |
| EnPassant.RecordedTarget | src/utils/chessLogic.ts:55-63 | Only a double push records a target. The target is the skipped square of the pawn's column: row 5 for White, row 2 for Black. It is empty. |
| EnPassant.AsWrittenIgnoresTargets | src/utils/chessLogic.ts:206-211 | With a target on row 2 or 5, or none, the pawn generator as written produces exactly the moves it produces with no target. |
| EnPassant.CorrectedOffersCapture | src/utils/chessLogic.ts:206-211 | The corrected generator offers the en-passant step. It does so to a pawn on its en-passant row beside a target left by the opponent's double push. |
| EnPassant.CaptureRemovesPassedPawn | src/utils/chessLogic.ts:55-66 | An en-passant capture puts the pawn on the target and empties its origin. It also removes the passed pawn at (from.row, to.col). |
| EnPassant.DoublePushRecordsTarget | src/utils/chessLogic.ts:55-66 | Concretely, the black double push (1, 3) to (3, 3) is generated and records the target (2, 3). |
| EnPassant.AsWrittenMissesCapture | src/utils/chessLogic.ts:206-211 | In the position after that push, the as-written generator offers the white pawn on (3, 4) only (2, 4), not the capture onto (2, 3). |
| EnPassant.CorrectedFindsCapture | src/utils/chessLogic.ts:206-211 | In the same position the corrected generator offers (2, 4) and (2, 3). Making the capture removes the black pawn from (3, 3). |

## Left out

- User interface, rendering, click handling and timers in the React components. They are presentation and not engine logic.
- The randomness of `Math.random`. The shuffle is an input reordering, and the promotion type is a parameter restricted to rook, knight, bishop and queen. Whether the sort-by-random-comparator shuffle is uniform is a statistical question, not a property of the logic.
- Castling-rights aliasing. The engine copies the rights object shallowly (chessLogic.ts line 79), so clearing a flag also mutates the caller's per-player object, even during the speculative moves of the legality filter. The model's rights are immutable values, and each call returns a fresh record. This is a deliberate divergence, and it can change the answer of a single call. `hasLegalMoves` scans the board in row-major order. A rook-role piece of the mover on column 0 or 7 may come before the king. Its speculative moves clear the shared flag even when every one of them is illegal, so the king's castling hop is then not generated. For example: Black is in check, its rook stands on (0, 0), (0, 1)-(0, 3) are empty, and the only escape is castling to (0, 2). The engine can then answer checkmate where the model's `HasLegalMoves`, `IsCheckmate` and `IsStalemate` find the castling move.
- Off-board column writes. A castling hop to a column outside 0-7, which the generator can produce, makes the engine write outside the 8 columns: an extra element past the end, or a property on the row array for a negative column, which the next copy of the row drops. The model drops such writes, and reads of them return empty as before.
- Moves.PseudoMoves: dispatches pawn-role pieces to the corrected generator `PawnMoves`, not to the engine's `getPawnMoves` as written (lines 206-211). With a recorded en-passant target the model therefore offers the en-passant capture where the engine offers nothing. `LegalMoves`, `IsValidMove`, `HasLegalMoves`, `IsCheckmate` and `IsStalemate` inherit this. `IsCheck` does not, because it passes no target. Moves.PawnGeneratorsDiffer bounds the difference to that one step, and EnPassant.AsWrittenMissesCapture shows the engine's behaviour.
- Executor.MakeMove: requires `from` on the board and `to.row` on the board. The engine would throw on an off-board row index. An off-board `from.col` would not throw: the engine reads `undefined` there. Such columns are excluded because no caller passes them: every origin is a square of the board.
- Legality.LegalMoves: the engine draws a fresh random promotion type for each speculative `makeMove` of the filter (line 175). The model draws one `promo` for all of them, and the same holds for `HasLegalMoves`, `IsCheckmate` and `IsStalemate`, which call it. Legality.LegalMovesPromoFree shows that the list does not depend on the choice.
- Legality.IsValidMove: the engine draws a fresh random promotion type for its second `makeMove`, and the model reuses the same `promo` for both. Legality.PromotionChoiceIrrelevant shows that the check test gives the same answer for any two promotion types, so the result is unaffected.
- Legality.HasLegalMoves: states the two directions as implications from its answer. It does not state when it throws, beyond the throwing of `LegalMoves` itself.
- Concrete full-game scenarios such as fool's mate or a known stalemate position are not stated. Unfolding the check test over a full board is too expensive for the verifier.
- The `./types` module and the chess context module are not part of this model. Their types are redefined directly in Dafny.

## Findings

| source | as written | input that shows it | evidently intended | confidence | as-written member | corrected member |
|---|---|---|---|---|---|---|
| src/utils/chessLogic.ts:206-211 | The en-passant step is offered only when the target's row equals the capturing pawn's own row. `makeMove` records the target on the skipped square (row 2 or 5), while the capturing pawn stands on row 3 or 4, so the step is never offered. | Black pawn (1, 3) to (3, 3) records target (2, 3). The white pawn on (3, 4) is offered only (2, 4). | Compare the target's row with the row the pawn lands on (pawn row plus direction). `makeMove` already treats the target as the landing square (lines 57-58). | not executed | Moves.PawnMovesAsWritten, EnPassant.AsWrittenIgnoresTargets, EnPassant.AsWrittenMissesCapture | Moves.PawnMoves, EnPassant.CorrectedOffersCapture, EnPassant.CorrectedFindsCapture |

=== FILE: check.dfy ===
/** Check detection. It generates the opponent's moves in the non-filtering
    mode, with no en-passant target and every castling right set, so it never
    calls back into the legality filter and needs no recursion guard. */
module Check {
  import opened Results
  import opened Chessboard
  import opened Roles
  import opened Moves

  /** The piece on `src` belongs to `attacker` and its unfiltered moves, as
      the check detector generates them, include `target`. */
  ghost predicate AttacksFrom(b: Grid, src: Pos, target: Pos, attacker: Player, roles: RoleMap)
    requires WellFormed(b) && OnBoard(src)
  {
    var ms := PseudoMoves(b, src, roles, None, AllRights);
    OwnedBy(b, src, attacker) && ms.Ok? && target in ms.value
  }

  /** Some piece of `attacker` attacks `target`. */
  ghost predicate Attacked(b: Grid, target: Pos, attacker: Player, roles: RoleMap)
    requires WellFormed(b)
  {
    exists q {:trigger AttacksFrom(b, q, target, attacker, roles)} :: OnBoard(q) && AttacksFrom(b, q, target, attacker, roles)
  }

  /** `attacker` has a piece on `src` whose move generation throws. */
  predicate StuckAttacker(b: Grid, src: Pos, attacker: Player, roles: RoleMap)
    requires WellFormed(b) && OnBoard(src)
  {
    OwnedBy(b, src, attacker) && StuckPawn(b, src, roles)
  }

  ghost predicate AnyStuck(b: Grid, attacker: Player, roles: RoleMap)
    requires WellFormed(b)
  {
    exists q {:trigger StuckAttacker(b, q, attacker, roles)} :: OnBoard(q) && StuckAttacker(b, q, attacker, roles)
  }

  /** The scan of the squares of index i..63 in row-major order, stopping at
      the first attacker of `target`; a throwing generator aborts the scan. */
  function AttackScan(b: Grid, target: Pos, attacker: Player, roles: RoleMap, i: nat): Outcome<bool>
    requires WellFormed(b) && i <= 64
    decreases 64 - i
  {
    if i == 64 then Ok(false)
    else
      var src := SquareAt(i);
      if OwnedBy(b, src, attacker) then
        match PseudoMoves(b, src, roles, None, AllRights)
        case Thrown => Thrown
        case Ok(ms) => if target in ms then Ok(true) else AttackScan(b, target, attacker, roles, i + 1)
      else AttackScan(b, target, attacker, roles, i + 1)
  }

  /** A true scan has found an attacker and a false scan has found none. The
      scan throws only if the attacker has a stuck pawn-role piece, and
      without one it always answers. */
  lemma {:induction false} AttackScanSound(b: Grid, target: Pos, attacker: Player, roles: RoleMap, i: nat)
    requires WellFormed(b) && i <= 64
    ensures var r := AttackScan(b, target, attacker, roles, i);
      && (r == Ok(true) ==> exists q :: OnBoard(q) && i <= IndexOf(q) && AttacksFrom(b, q, target, attacker, roles))
      && (r == Ok(false) ==> forall q :: OnBoard(q) && i <= IndexOf(q) ==> !AttacksFrom(b, q, target, attacker, roles))
      && (r.Thrown? ==> exists q :: OnBoard(q) && i <= IndexOf(q) && StuckAttacker(b, q, attacker, roles))
      && ((forall q :: OnBoard(q) && i <= IndexOf(q) ==> !StuckAttacker(b, q, attacker, roles)) ==> r.Ok?)
    decreases 64 - i
  {
    if i == 64 {
      forall q | OnBoard(q) ensures IndexOf(q) < 64 {
        SquareIndex(q);
      }
    } else {
      IndexSquare(i);
      OnlySquareAt(i);
      AttackScanSound(b, target, attacker, roles, i + 1);
    }
  }

  /** `pl`'s king, found by type, is attacked by one of the opponent's pieces. */
  ghost predicate InCheck(b: Grid, pl: Player, roles: RoleMap)
    requires WellFormed(b)
  {
    FindKing(b, pl).Some? && Attacked(b, FindKing(b, pl).value, Opponent(pl), roles)
  }

  /** Whether `pl` is in check. A board without `pl`'s king is never in
      check. The answer is exact whenever it is given; the scan throws only
      if an opponent pawn-role piece stands on its far rank. */
  function IsCheck(b: Grid, pl: Player, roles: RoleMap): (r: Outcome<bool>)
    requires WellFormed(b)
    ensures FindKing(b, pl).None? ==> r == Ok(false)
    ensures r.Ok? ==> r.value == InCheck(b, pl, roles)
    ensures r.Thrown? ==> AnyStuck(b, Opponent(pl), roles)
    ensures !AnyStuck(b, Opponent(pl), roles) ==> r.Ok?
  {
    match FindKing(b, pl)
    case None => Ok(false)
    case Some(king) =>
      AttackScanSound(b, king, Opponent(pl), roles, 0);
      AttackScan(b, king, Opponent(pl), roles, 0)
  }

  /** Boards with the same holders whose attacker pieces are identical give
      the same scan. */
  lemma {:induction false} AttackScanSameHolders(b1: Grid, b2: Grid, target: Pos, attacker: Player, roles: RoleMap, i: nat)
    requires WellFormed(b1) && WellFormed(b2) && SameHolders(b1, b2) && i <= 64
    requires forall q :: OnBoard(q) && OwnedBy(b1, q, attacker) ==> At(b1, q) == At(b2, q)
    ensures AttackScan(b1, target, attacker, roles, i) == AttackScan(b2, target, attacker, roles, i)
    decreases 64 - i
  {
    if i < 64 {
      var src := SquareAt(i);
      SameHoldersAt(b1, b2, src);
      assert OwnedBy(b1, src, attacker) == OwnedBy(b2, src, attacker);
      AttackScanSameHolders(b1, b2, target, attacker, roles, i + 1);
      if OwnedBy(b1, src, attacker) {
        PseudoMovesSameHolders(b1, b2, src, roles, None, AllRights);
        var ms := PseudoMoves(b1, src, roles, None, AllRights);
        assert ms == PseudoMoves(b2, src, roles, None, AllRights);
      }
    }
  }

  /** The check test depends only on who holds each square, on the
      opponent's pieces and on where the player's king stands. */
  lemma IsCheckSameHolders(b1: Grid, b2: Grid, pl: Player, roles: RoleMap)
    requires WellFormed(b1) && WellFormed(b2) && SameHolders(b1, b2)
    requires forall q :: OnBoard(q) && OwnedBy(b1, q, Opponent(pl)) ==> At(b1, q) == At(b2, q)
    requires forall q :: OnBoard(q) ==> IsKingOf(At(b1, q), pl) == IsKingOf(At(b2, q), pl)
    ensures IsCheck(b1, pl, roles) == IsCheck(b2, pl, roles)
  {
    FindKingSameKings(b1, b2, pl);
    if FindKing(b1, pl).Some? {
      AttackScanSameHolders(b1, b2, FindKing(b1, pl).value, Opponent(pl), roles, 0);
    }
  }
}

=== FILE: chessboard.dfy ===
/** The board model: pieces, players, squares, the 8x8 grid, castling rights,
    the starting position and the king lookup. */
module Chessboard {
  import opened Results

  /** A piece's nominal type. The same six values double as movement roles. */
  datatype Kind = Pawn | Rook | Knight | Bishop | Queen | King

  datatype Player = White | Black

  datatype Piece = Piece(kind: Kind, player: Player)

  /** A square coordinate. Not necessarily on the board: castling under
      all-true rights can name a column outside 0-7. */
  datatype Pos = Pos(row: int, col: int)

  type Square = Option<Piece>

  /** Row 0 is black's back rank, row 7 is white's. */
  type Grid = seq<seq<Square>>

  function Opponent(p: Player): Player {
    if p == White then Black else White
  }

  predicate WellFormed(b: Grid) {
    |b| == 8 && forall r :: 0 <= r < 8 ==> |b[r]| == 8
  }

  predicate RowOnBoard(row: int) {
    0 <= row < 8
  }

  predicate OnBoard(p: Pos) {
    RowOnBoard(p.row) && 0 <= p.col < 8
  }

  /** Reading a square. An off-board column reads as empty (JavaScript's
      `undefined`); an off-board row would throw, so it is excluded here. */
  function At(b: Grid, p: Pos): Square
    requires WellFormed(b) && RowOnBoard(p.row)
  {
    if 0 <= p.col < 8 then b[p.row][p.col] else None
  }

  /** Writing a square of a copied board. A write to an off-board column is
      invisible to every later read of the 8x8 grid and is dropped. */
  function Put(b: Grid, p: Pos, sq: Square): (b': Grid)
    requires WellFormed(b) && RowOnBoard(p.row)
    ensures WellFormed(b')
    ensures forall q: Pos :: RowOnBoard(q.row) ==>
      At(b', q) == if OnBoard(p) && q == p then sq else At(b, q)
  {
    if 0 <= p.col < 8 then b[p.row := b[p.row][p.col := sq]] else b
  }

  /** True when the square holds a piece of `pl`. */
  predicate OwnedBy(b: Grid, p: Pos, pl: Player)
    requires WellFormed(b) && RowOnBoard(p.row)
  {
    At(b, p).Some? && At(b, p).value.player == pl
  }

  /** The player holding the square, if any. */
  function Holder(sq: Square): Option<Player> {
    if sq.Some? then Some(sq.value.player) else None
  }

  /** The two boards have the same occupancy and colours everywhere; only
      piece types may differ. */
  ghost predicate SameHolders(b1: Grid, b2: Grid)
    requires WellFormed(b1) && WellFormed(b2)
  {
    forall q: Pos :: OnBoard(q) ==> Holder(At(b1, q)) == Holder(At(b2, q))
  }

  // Row-major enumeration of the 64 squares, the order of every scan in the engine.

  function SquareAt(i: int): (p: Pos)
    requires 0 <= i < 64
    ensures OnBoard(p)
  {
    Pos(i / 8, i % 8)
  }

  function IndexOf(p: Pos): int {
    8 * p.row + p.col
  }

  lemma SquareIndex(p: Pos)
    requires OnBoard(p)
    ensures 0 <= IndexOf(p) < 64 && SquareAt(IndexOf(p)) == p
  {
  }

  /** `IndexOf` undoes `SquareAt`. */
  lemma IndexSquare(i: int)
    requires 0 <= i < 64
    ensures IndexOf(SquareAt(i)) == i
  {
  }

  /** `SquareAt(i)` is the one square of index `i`. */
  lemma OnlySquareAt(i: int)
    requires 0 <= i < 64
    ensures forall q :: OnBoard(q) && IndexOf(q) == i ==> q == SquareAt(i)
  {
    forall q | OnBoard(q) && IndexOf(q) == i ensures q == SquareAt(i) {
      SquareIndex(q);
    }
  }

  /** One for an occupied square, zero for an empty one. */
  function Occ(sq: Square): int {
    if sq.Some? then 1 else 0
  }

  /** Number of occupied squares among those with index >= i. */
  function CountFrom(b: Grid, i: int): nat
    requires WellFormed(b)
    decreases 64 - i
  {
    if i < 0 || i >= 64 then 0
    else Occ(At(b, SquareAt(i))) + CountFrom(b, i + 1)
  }

  /** Number of pieces on the board. */
  function Count(b: Grid): nat
    requires WellFormed(b)
  {
    CountFrom(b, 0)
  }

  /** Writing one square changes the piece count by exactly what the write
      adds and removes. */
  lemma {:induction false} CountFromPut(b: Grid, p: Pos, sq: Square, i: int)
    requires WellFormed(b) && OnBoard(p) && 0 <= i <= 64
    ensures CountFrom(Put(b, p, sq), i)
         == CountFrom(b, i) + (if i <= IndexOf(p) then Occ(sq) - Occ(At(b, p)) else 0)
    decreases 64 - i
  {
    if i < 64 {
      CountFromPut(b, p, sq, i + 1);
      SquareIndex(p);
      IndexSquare(i);
      var q := SquareAt(i);
      assert q == p <==> i == IndexOf(p);
      assert At(Put(b, p, sq), q) == if q == p then sq else At(b, q);
    }
  }

  lemma CountPut(b: Grid, p: Pos, sq: Square)
    requires WellFormed(b) && RowOnBoard(p.row)
    ensures Count(Put(b, p, sq)) == Count(b) + (if OnBoard(p) then Occ(sq) - Occ(At(b, p)) else 0)
  {
    if OnBoard(p) {
      CountFromPut(b, p, sq, 0);
    }
  }

  lemma {:induction false} CountSpanFull(b: Grid, i: int, j: int)
    requires WellFormed(b) && 0 <= i <= j <= 64
    requires forall k :: i <= k < j ==> At(b, SquareAt(k)).Some?
    ensures CountFrom(b, i) == (j - i) + CountFrom(b, j)
    decreases j - i
  {
    if i < j {
      CountSpanFull(b, i + 1, j);
    }
  }

  lemma {:induction false} CountSpanEmpty(b: Grid, i: int, j: int)
    requires WellFormed(b) && 0 <= i <= j <= 64
    requires forall k :: i <= k < j ==> At(b, SquareAt(k)).None?
    ensures CountFrom(b, i) == CountFrom(b, j)
    decreases j - i
  {
    if i < j {
      CountSpanEmpty(b, i + 1, j);
    }
  }

  // The starting position.

  const BackRank: seq<Kind> := [Rook, Knight, Bishop, Queen, King, Bishop, Knight, Rook]

  function BackRow(pl: Player): seq<Square> {
    seq(8, c requires 0 <= c < 8 => Some(Piece(BackRank[c], pl)))
  }

  function PawnRow(pl: Player): seq<Square> {
    seq(8, c => Some(Piece(Pawn, pl)))
  }

  function EmptyRow(): seq<Square> {
    seq(8, c => None)
  }

  /** The standard starting position: black on rows 0-1, white on rows 6-7,
      rows 2-5 empty. */
  function InitialBoard(): (b: Grid)
    ensures WellFormed(b)
    ensures forall c :: 0 <= c < 8 ==>
      && At(b, Pos(0, c)) == Some(Piece(BackRank[c], Black))
      && At(b, Pos(1, c)) == Some(Piece(Pawn, Black))
      && At(b, Pos(6, c)) == Some(Piece(Pawn, White))
      && At(b, Pos(7, c)) == Some(Piece(BackRank[c], White))
    ensures forall p :: OnBoard(p) && 2 <= p.row <= 5 ==> At(b, p) == None
  {
    [BackRow(Black), PawnRow(Black), EmptyRow(), EmptyRow(),
     EmptyRow(), EmptyRow(), PawnRow(White), BackRow(White)]
  }

  /** The starting position holds 32 pieces. */
  lemma InitialCount()
    ensures Count(InitialBoard()) == 32
  {
    InitialSpans();
    FullEmptyFull(InitialBoard());
  }

  /** A board whose first and last 16 squares are occupied and whose middle
      32 are empty holds 32 pieces. */
  lemma FullEmptyFull(b: Grid)
    requires WellFormed(b)
    requires forall k :: 0 <= k < 16 ==> At(b, SquareAt(k)).Some?
    requires forall k :: 16 <= k < 48 ==> At(b, SquareAt(k)).None?
    requires forall k :: 48 <= k < 64 ==> At(b, SquareAt(k)).Some?
    ensures Count(b) == 32
  {
    CountSpanFull(b, 0, 16);
    CountSpanEmpty(b, 16, 48);
    CountSpanFull(b, 48, 64);
  }

  /** In row-major order the starting position is 16 pieces, 32 empty
      squares, 16 pieces. */
  lemma InitialSpans()
    ensures forall k :: 0 <= k < 16 ==> At(InitialBoard(), SquareAt(k)).Some?
    ensures forall k :: 16 <= k < 48 ==> At(InitialBoard(), SquareAt(k)).None?
    ensures forall k :: 48 <= k < 64 ==> At(InitialBoard(), SquareAt(k)).Some?
  {
    var b := InitialBoard();
    forall k | 0 <= k < 16 ensures At(b, SquareAt(k)).Some? {
      if k < 8 {
        assert SquareAt(k) == Pos(0, k);
      } else {
        assert SquareAt(k) == Pos(1, k - 8);
      }
    }
    forall k | 16 <= k < 48 ensures At(b, SquareAt(k)).None? {
      assert 2 <= SquareAt(k).row <= 5;
    }
    forall k | 48 <= k < 64 ensures At(b, SquareAt(k)).Some? {
      if k < 56 {
        assert SquareAt(k) == Pos(6, k - 48);
      } else {
        assert SquareAt(k) == Pos(7, k - 56);
      }
    }
  }

  // The king lookup, by nominal type and not by role.

  predicate IsKingOf(sq: Square, pl: Player) {
    sq == Some(Piece(King, pl))
  }

  function FindKingFrom(b: Grid, pl: Player, i: nat): (r: Option<Pos>)
    requires WellFormed(b) && i <= 64
    ensures r.Some? ==> OnBoard(r.value) && IsKingOf(At(b, r.value), pl)
    ensures r.Some? ==>
      && i <= IndexOf(r.value) < 64
      && forall j :: i <= j < IndexOf(r.value) ==> !IsKingOf(At(b, SquareAt(j)), pl)
    ensures r.None? <==> forall j :: i <= j < 64 ==> !IsKingOf(At(b, SquareAt(j)), pl)
    decreases 64 - i
  {
    if i == 64 then None
    else if IsKingOf(At(b, SquareAt(i)), pl) then (IndexSquare(i); Some(SquareAt(i)))
    else FindKingFrom(b, pl, i + 1)
  }

  /** The first square, in row-major order, holding `pl`'s king by type. */
  function FindKing(b: Grid, pl: Player): (r: Option<Pos>)
    requires WellFormed(b)
    ensures r.Some? ==> OnBoard(r.value) && IsKingOf(At(b, r.value), pl)
    ensures r.Some? ==> forall q :: OnBoard(q) && IndexOf(q) < IndexOf(r.value) ==> !IsKingOf(At(b, q), pl)
    ensures r.None? <==> forall q :: OnBoard(q) ==> !IsKingOf(At(b, q), pl)
  {
    var r := FindKingFrom(b, pl, 0);
    NoKingOnAnySquare(b, pl);
    if r.Some? then
      forall q | OnBoard(q) && IndexOf(q) < IndexOf(r.value) ensures !IsKingOf(At(b, q), pl) {
        SquareIndex(q);
      }
      r
    else r
  }

  /** Scanning the 64 indices covers every square of the board. */
  lemma NoKingOnAnySquare(b: Grid, pl: Player)
    requires WellFormed(b)
    ensures (forall j :: 0 <= j < 64 ==> !IsKingOf(At(b, SquareAt(j)), pl))
        <==> (forall q :: OnBoard(q) ==> !IsKingOf(At(b, q), pl))
  {
    if forall j :: 0 <= j < 64 ==> !IsKingOf(At(b, SquareAt(j)), pl) {
      forall q | OnBoard(q) ensures !IsKingOf(At(b, q), pl) {
        SquareIndex(q);
      }
    }
  }

  /** The lookup depends only on where `pl`'s king stands. */
  lemma FindKingSameKings(b1: Grid, b2: Grid, pl: Player)
    requires WellFormed(b1) && WellFormed(b2)
    requires forall q :: OnBoard(q) ==> IsKingOf(At(b1, q), pl) == IsKingOf(At(b2, q), pl)
    ensures FindKing(b1, pl) == FindKing(b2, pl)
  {
    var r1, r2 := FindKing(b1, pl), FindKing(b2, pl);
    if r1.Some? && r2.Some? {
      SquareIndex(r1.value);
      SquareIndex(r2.value);
      assert !(IndexOf(r1.value) < IndexOf(r2.value));
      assert !(IndexOf(r2.value) < IndexOf(r1.value));
      assert r1.value == SquareAt(IndexOf(r1.value));
    }
  }

  /** The only square of the starting position holding `pl`'s king. */
  lemma InitialKingSquare(pl: Player, q: Pos)
    requires OnBoard(q) && IsKingOf(At(InitialBoard(), q), pl)
    ensures q == Pos(if pl == White then 7 else 0, 4)
  {
    var b := InitialBoard();
    assert q.row == 0 || q.row == 7;
    assert BackRank[q.col] == King;
  }

  lemma InitialKings()
    ensures FindKing(InitialBoard(), Black) == Some(Pos(0, 4))
    ensures FindKing(InitialBoard(), White) == Some(Pos(7, 4))
  {
    var b := InitialBoard();
    assert IsKingOf(At(b, Pos(7, 4)), White);
    assert IsKingOf(At(b, Pos(0, 4)), Black);
    InitialKingSquare(White, FindKing(b, White).value);
    InitialKingSquare(Black, FindKing(b, Black).value);
  }

  // Castling rights, per player and per side.

  datatype Rights = Rights(kingSide: bool, queenSide: bool)

  datatype CastlingRights = CastlingRights(white: Rights, black: Rights) {
    function Of(p: Player): Rights {
      if p == White then white else black
    }

    function With(p: Player, r: Rights): CastlingRights {
      if p == White then this.(white := r) else this.(black := r)
    }
  }

  /** The rights the check detector passes to every generator. */
  const AllRights := CastlingRights(Rights(true, true), Rights(true, true))

  /** Rights `r'` are no stronger than `r`: a flag may only go from true to false. */
  predicate NoStronger(r': Rights, r: Rights) {
    (r'.kingSide ==> r.kingSide) && (r'.queenSide ==> r.queenSide)
  }
}

=== FILE: enpassant.dfy ===
/** En passant across the generator and the executor. The executor records a
    target on the row the double-pushing pawn skipped and removes the passed
    pawn when a pawn-role piece moves diagonally onto that target. The
    generator as written offers the capture only when the target lies on the
    capturing pawn's own row, which a recorded target never does; the
    corrected generator, which the engine model uses, compares with the row
    the pawn lands on. */
module EnPassant {
  import opened Results
  import opened Chessboard
  import opened Roles
  import opened Moves
  import opened Executor

  /** The row a double push of `pl`'s pawn skips: 5 for White, 2 for Black. */
  function SkippedRow(pl: Player): int {
    StartRow(pl) + Forward(pl)
  }

  /** A pawn move records an en-passant target only when it is the double
      push, and then the target is the skipped, empty square of the pawn's
      column. */
  lemma RecordedTarget(b: Grid, pos: Pos, roles: RoleMap, ep: Option<Pos>, m: Pos)
    requires WellFormed(b) && OnBoard(pos) && HasRole(At(b, pos), roles, Pawn)
    requires PawnMoves(b, pos, At(b, pos).value.player, ep).Ok?
    requires m in PawnMoves(b, pos, At(b, pos).value.player, ep).value
    ensures var t := NextEnPassant(At(b, pos), pos, m, roles);
      t.Some? ==>
        && t.value == Pos(SkippedRow(At(b, pos).value.player), pos.col)
        && At(b, t.value).None?
  {
    var pl := At(b, pos).value.player;
    PawnMoveShapes(b, pos, pl, ep, pos.row + Forward(pl), m);
  }

  /** A recorded target lies on row 2 or row 5. The as-written generator
      offers an en-passant step only from row 3 (White) or row 4 (Black) and
      only for a target on that same row, so with any recorded target, or
      none, it produces exactly the moves it would produce with no target. */
  lemma AsWrittenIgnoresTargets(b: Grid, pos: Pos, pl: Player, ep: Option<Pos>)
    requires WellFormed(b) && OnBoard(pos)
    requires ep.Some? ==> ep.value.row == SkippedRow(White) || ep.value.row == SkippedRow(Black)
    ensures PawnMovesAsWritten(b, pos, pl, ep) == PawnMovesWith(b, pos, pl, None, pos.row)
  {
    assert !EnPassantFires(pos, pl, ep, pos.row);
  }

  /** The corrected generator offers the en-passant step to a pawn on its
      en-passant row beside a target recorded by the opponent's double push. */
  lemma CorrectedOffersCapture(b: Grid, pos: Pos, pl: Player, c: int)
    requires WellFormed(b) && OnBoard(pos)
    requires pos.row == EnPassantRow(pl) && Abs(c - pos.col) == 1
    ensures var t := Pos(SkippedRow(Opponent(pl)), c);
      PawnMoves(b, pos, pl, Some(t)).Ok? && t in PawnMoves(b, pos, pl, Some(t)).value
  {
  }

  /** An en-passant capture offered by the corrected generator moves the
      pawn onto the target, empties its origin and removes the passed pawn
      beside it. */
  lemma CaptureRemovesPassedPawn(b: Grid, from: Pos, to: Pos, roles: RoleMap, rights: CastlingRights,
                                 promo: Promotion)
    requires WellFormed(b) && OnBoard(from) && HasRole(At(b, from), roles, Pawn)
    requires PawnMoves(b, from, At(b, from).value.player, Some(to)).Ok?
    requires to in PawnMoves(b, from, At(b, from).value.player, Some(to)).value
    requires OnBoard(to) && to.col != from.col && At(b, to).None?
    ensures var b' := MakeMove(b, from, to, rights, Some(to), roles, promo).board;
      && At(b', to) == At(b, from)
      && At(b', from).None?
      && At(b', Pos(from.row, to.col)).None?
  {
    var pl := At(b, from).value.player;
    PawnMoveShapes(b, from, pl, Some(to), from.row + Forward(pl), to);
    assert from.row == EnPassantRow(pl);
    var victim := Pos(from.row, to.col);
    assert CapturesEnPassant(At(b, from), At(b, to), from, to, Some(to), roles);
    var b1 := RemovePassedPawn(b, from, to, Some(to), roles);
    assert b1 == Put(b, victim, None);
    assert At(b1, from) == At(b, from) && At(b1, victim).None?;
    var b2 := Land(b1, At(b, from), from, to, roles, promo);
    assert !Promotes(At(b, from), to, roles);
    assert At(b2, to) == At(b, from) && At(b2, from).None? && At(b2, victim).None?;
    assert !Castling(At(b, from), from, to, roles);
  }

  // A concrete game fragment under the standard role map.

  const Standard: RoleMap := RoleMap(Pawn, Rook, Knight, Bishop, Queen, King)

  function Blank(): (b: Grid)
    ensures WellFormed(b)
    ensures forall q: Pos :: RowOnBoard(q.row) ==> At(b, q).None?
  {
    seq(8, r => EmptyRow())
  }

  /** A black pawn on (1, 3) and a white pawn on (3, 4). */
  function BeforePush(): Grid {
    Put(Put(Blank(), Pos(1, 3), Some(Piece(Pawn, Black))), Pos(3, 4), Some(Piece(Pawn, White)))
  }

  /** The black pawn has moved (1, 3) to (3, 3), beside the white pawn. */
  function AfterPush(): Grid {
    Put(Put(Blank(), Pos(3, 3), Some(Piece(Pawn, Black))), Pos(3, 4), Some(Piece(Pawn, White)))
  }

  /** The double push (1, 3) to (3, 3) is generated, records the target
      (2, 3), and leaves the position `AfterPush`. */
  lemma DoublePushRecordsTarget()
    ensures PawnMoves(BeforePush(), Pos(1, 3), Black, None).Ok?
    ensures Pos(3, 3) in PawnMoves(BeforePush(), Pos(1, 3), Black, None).value
    ensures MakeMove(BeforePush(), Pos(1, 3), Pos(3, 3), AllRights, None, Standard, Queen).enPassant == Some(Pos(2, 3))
    ensures MakeMove(BeforePush(), Pos(1, 3), Pos(3, 3), AllRights, None, Standard, Queen).board == AfterPush()
  {
    var b := BeforePush();
    assert At(b, Pos(2, 3)).None? && At(b, Pos(3, 3)).None?;
    var b' := MakeMove(b, Pos(1, 3), Pos(3, 3), AllRights, None, Standard, Queen).board;
    forall q | OnBoard(q) ensures At(b', q) == At(AfterPush(), q) {
    }
    BoardsAgree(b', AfterPush());
  }

  /** Two well-formed boards that agree on every square are equal. */
  lemma BoardsAgree(b: Grid, b': Grid)
    requires WellFormed(b) && WellFormed(b')
    requires forall q :: OnBoard(q) ==> At(b, q) == At(b', q)
    ensures b == b'
  {
    forall r | 0 <= r < 8 ensures b[r] == b'[r] {
      forall c | 0 <= c < 8 ensures b[r][c] == b'[r][c] {
        assert At(b, Pos(r, c)) == At(b', Pos(r, c));
      }
    }
  }

  /** With the target (2, 3) recorded, the as-written generator offers the
      white pawn on (3, 4) only its push to (2, 4), not the capture onto
      (2, 3). */
  lemma AsWrittenMissesCapture()
    ensures PawnMovesAsWritten(AfterPush(), Pos(3, 4), White, Some(Pos(2, 3))) == Ok([Pos(2, 4)])
  {
    var b, pos, ep := AfterPush(), Pos(3, 4), Some(Pos(2, 3));
    assert At(b, Pos(2, 4)).None? && At(b, Pos(2, 3)).None? && At(b, Pos(2, 5)).None?;
    assert DiagonalCapture(b, White, Pos(2, 3)) == [] && DiagonalCapture(b, White, Pos(2, 5)) == [];
    assert !EnPassantFires(pos, White, ep, 3);
    assert Pushes(b, pos, White) == [Pos(2, 4)];
    assert Captures(b, pos, White) == [] && EnPassantStep(pos, White, ep, 3) == [];
    assert PawnMovesWith(b, pos, White, ep, 3) == Ok([Pos(2, 4)] + [] + []);
  }

  /** In the same position the corrected generator offers the capture, and
      making it removes the black pawn from (3, 3). */
  lemma CorrectedFindsCapture()
    ensures PawnMoves(AfterPush(), Pos(3, 4), White, Some(Pos(2, 3))) == Ok([Pos(2, 4), Pos(2, 3)])
    ensures At(MakeMove(AfterPush(), Pos(3, 4), Pos(2, 3), AllRights, Some(Pos(2, 3)), Standard, Queen).board, Pos(3, 3)).None?
  {
    var b, pos, ep := AfterPush(), Pos(3, 4), Some(Pos(2, 3));
    assert At(b, Pos(2, 4)).None? && At(b, Pos(2, 3)).None? && At(b, Pos(2, 5)).None?;
    assert DiagonalCapture(b, White, Pos(2, 3)) == [] && DiagonalCapture(b, White, Pos(2, 5)) == [];
    assert EnPassantFires(pos, White, ep, 2);
    assert Pushes(b, pos, White) == [Pos(2, 4)];
    assert Captures(b, pos, White) == [] && EnPassantStep(pos, White, ep, 2) == [Pos(2, 3)];
    assert PawnMovesWith(b, pos, White, ep, 2) == Ok([Pos(2, 4)] + [] + [Pos(2, 3)]);
    assert [Pos(2, 4)] + [] + [Pos(2, 3)] == [Pos(2, 4), Pos(2, 3)];
    assert PawnMoves(b, pos, White, ep) == PawnMovesWith(b, pos, White, ep, 2);
    CaptureRemovesPassedPawn(b, pos, Pos(2, 3), Standard, AllRights, Queen);
  }
}

=== FILE: executor.dfy ===
/** The move executor: applies a move to a copy of the board and derives the
    next en-passant target and castling rights. The promotion draw is an
    input. */
module Executor {
  import opened Results
  import opened Chessboard
  import opened Roles
  import opened Moves

  datatype MoveResult = MoveResult(board: Grid, enPassant: Option<Pos>, rights: CastlingRights)

  /** The square holds a piece whose type has movement role `role`. */
  predicate HasRole(sq: Square, roles: RoleMap, role: Kind) {
    sq.Some? && roles.Of(sq.value.kind) == role
  }

  // The stages of a move, in the order the engine applies them.

  /** The en-passant capture condition: a pawn-role piece changes column onto
      an empty square that is the current target. */
  predicate CapturesEnPassant(piece: Square, target: Square, from: Pos, to: Pos, ep: Option<Pos>, roles: RoleMap) {
    HasRole(piece, roles, Pawn) && to.col != from.col && target.None? && ep == Some(to)
  }

  /** Stage 1: remove the pawn passed by an en-passant capture, which stands
      on the mover's row in the destination column. */
  function RemovePassedPawn(b: Grid, from: Pos, to: Pos, ep: Option<Pos>, roles: RoleMap): Grid
    requires WellFormed(b) && OnBoard(from) && RowOnBoard(to.row)
  {
    if CapturesEnPassant(At(b, from), At(b, to), from, to, ep, roles)
    then Put(b, Pos(from.row, to.col), None)
    else b
  }

  /** Promotion happens to a pawn-role piece landing on row 0 or row 7,
      whichever its colour. */
  predicate Promotes(piece: Square, to: Pos, roles: RoleMap) {
    HasRole(piece, roles, Pawn) && (to.row == 0 || to.row == 7)
  }

  /** Stage 2: put the piece (or its promotion) on `to` and empty `from`. */
  function Land(b: Grid, piece: Square, from: Pos, to: Pos, roles: RoleMap, promo: Promotion): Grid
    requires WellFormed(b) && OnBoard(from) && RowOnBoard(to.row)
  {
    var moved := Put(Put(b, to, piece), from, None);
    if Promotes(piece, to, roles) then Put(moved, to, Some(Piece(promo, piece.value.player))) else moved
  }

  /** A king-role piece moving two columns castles. */
  predicate Castling(piece: Square, from: Pos, to: Pos, roles: RoleMap) {
    HasRole(piece, roles, King) && Abs(to.col - from.col) == 2
  }

  function RookHome(from: Pos, to: Pos): Pos {
    Pos(to.row, if to.col > from.col then 7 else 0)
  }

  function RookLanding(from: Pos, to: Pos): Pos {
    Pos(to.row, if to.col > from.col then 5 else 3)
  }

  /** Stage 3: on castling, whatever stands on the corner of the king's side
      moves next to the king; no rook is required to be there. */
  function MoveCastlingRook(b: Grid, piece: Square, from: Pos, to: Pos, roles: RoleMap): Grid
    requires WellFormed(b) && RowOnBoard(to.row)
  {
    if Castling(piece, from, to, roles) then
      var home := RookHome(from, to);
      Put(Put(b, RookLanding(from, to), At(b, home)), home, None)
    else b
  }

  /** The next en-passant target: the square a pawn-role piece skipped over
      when it moved two rows, and nothing after any other move. */
  function NextEnPassant(piece: Square, from: Pos, to: Pos, roles: RoleMap): (r: Option<Pos>)
    ensures r.Some? <==> HasRole(piece, roles, Pawn) && Abs(to.row - from.row) == 2
    ensures r.Some? ==> r.value.col == from.col && r.value.row - from.row == to.row - r.value.row
  {
    if HasRole(piece, roles, Pawn) && Abs(to.row - from.row) == 2
    then Some(Pos((from.row + to.row) / 2, from.col))
    else None
  }

  /** The castling-rights update, keyed on the role of the moving piece: a
      king-role move clears both of the mover's flags, a rook-role move from
      column 0 the queen-side flag and from column 7 the king-side flag. */
  function UpdateRights(rights: CastlingRights, piece: Square, from: Pos, roles: RoleMap): (r: CastlingRights)
    ensures NoStronger(r.white, rights.white) && NoStronger(r.black, rights.black)
    ensures piece.None? ==> r == rights
    ensures piece.Some? ==> r.Of(Opponent(piece.value.player)) == rights.Of(Opponent(piece.value.player))
    ensures HasRole(piece, roles, King) ==> r.Of(piece.value.player) == Rights(false, false)
    ensures HasRole(piece, roles, Rook) && from.col == 0 ==>
      r.Of(piece.value.player) == rights.Of(piece.value.player).(queenSide := false)
    ensures HasRole(piece, roles, Rook) && from.col == 7 ==>
      r.Of(piece.value.player) == rights.Of(piece.value.player).(kingSide := false)
    ensures r != rights ==> HasRole(piece, roles, King) || (HasRole(piece, roles, Rook) && (from.col == 0 || from.col == 7))
  {
    match piece
    case None => rights
    case Some(p) =>
      var own := rights.Of(p.player);
      if roles.Of(p.kind) == King then rights.With(p.player, Rights(false, false))
      else if roles.Of(p.kind) == Rook && from.col == 0 then rights.With(p.player, own.(queenSide := false))
      else if roles.Of(p.kind) == Rook && from.col == 7 then rights.With(p.player, own.(kingSide := false))
      else rights
  }

  /** Apply a move. The engine trusts its caller: nothing checks that the
      move is legal. */
  function MakeMove(b: Grid, from: Pos, to: Pos, rights: CastlingRights, ep: Option<Pos>,
                    roles: RoleMap, promo: Promotion): (r: MoveResult)
    requires WellFormed(b) && OnBoard(from) && RowOnBoard(to.row)
    ensures WellFormed(r.board)
  {
    var piece := At(b, from);
    var b1 := RemovePassedPawn(b, from, to, ep, roles);
    var b2 := Land(b1, piece, from, to, roles, promo);
    var b3 := MoveCastlingRook(b2, piece, from, to, roles);
    MoveResult(b3, NextEnPassant(piece, from, to, roles), UpdateRights(rights, piece, from, roles))
  }

  // Which squares a move can touch.

  /** The squares the move from `from` to `to` changes: both ends, the
      passed pawn's square on an en-passant capture, and the corner and
      landing squares of the rook on castling. */
  predicate Touched(b: Grid, from: Pos, to: Pos, ep: Option<Pos>, roles: RoleMap, q: Pos)
    requires WellFormed(b) && OnBoard(from) && RowOnBoard(to.row)
  {
    || q == from || q == to
    || (CapturesEnPassant(At(b, from), At(b, to), from, to, ep, roles) && q == Pos(from.row, to.col))
    || (Castling(At(b, from), from, to, roles) && (q == RookHome(from, to) || q == RookLanding(from, to)))
  }

  /** Every other square is left as it was. */
  lemma MakeMoveFrame(b: Grid, from: Pos, to: Pos, rights: CastlingRights, ep: Option<Pos>,
                      roles: RoleMap, promo: Promotion, q: Pos)
    requires WellFormed(b) && OnBoard(from) && RowOnBoard(to.row)
    requires OnBoard(q) && !Touched(b, from, to, ep, roles, q)
    ensures At(MakeMove(b, from, to, rights, ep, roles, promo).board, q) == At(b, q)
  {
  }

  // The piece count never grows.

  lemma LandCount(b: Grid, piece: Square, from: Pos, to: Pos, roles: RoleMap, promo: Promotion)
    requires WellFormed(b) && OnBoard(from) && RowOnBoard(to.row) && At(b, from) == piece
    ensures Count(Land(b, piece, from, to, roles, promo)) <= Count(b)
  {
    var placed := Put(b, to, piece);
    var moved := Put(placed, from, None);
    CountPut(b, to, piece);
    CountPut(placed, from, None);
    if Promotes(piece, to, roles) {
      CountPut(moved, to, Some(Piece(promo, piece.value.player)));
    }
  }

  lemma CastlingRookCount(b: Grid, piece: Square, from: Pos, to: Pos, roles: RoleMap)
    requires WellFormed(b) && RowOnBoard(to.row)
    ensures Count(MoveCastlingRook(b, piece, from, to, roles)) <= Count(b)
  {
    if Castling(piece, from, to, roles) {
      var home := RookHome(from, to);
      var landing := RookLanding(from, to);
      var placed := Put(b, landing, At(b, home));
      CountPut(b, landing, At(b, home));
      CountPut(placed, home, None);
      assert Count(placed) <= Count(b) + Occ(At(b, home));
      assert OnBoard(home) ==> At(placed, home) == At(b, home);
    }
  }

  /** A move never adds pieces to the board. */
  lemma MakeMoveCount(b: Grid, from: Pos, to: Pos, rights: CastlingRights, ep: Option<Pos>,
                      roles: RoleMap, promo: Promotion)
    requires WellFormed(b) && OnBoard(from) && RowOnBoard(to.row)
    ensures Count(MakeMove(b, from, to, rights, ep, roles, promo).board) <= Count(b)
  {
    var piece := At(b, from);
    var b1 := RemovePassedPawn(b, from, to, ep, roles);
    var b2 := Land(b1, piece, from, to, roles, promo);
    assert Count(b1) <= Count(b) by {
      if CapturesEnPassant(At(b, from), At(b, to), from, to, ep, roles) {
        CountPut(b, Pos(from.row, to.col), None);
      }
    }
    assert At(b1, from) == piece;
    LandCount(b1, piece, from, to, roles, promo);
    CastlingRookCount(b2, piece, from, to, roles);
    assert MakeMove(b, from, to, rights, ep, roles, promo).board == MoveCastlingRook(b2, piece, from, to, roles);
  }

  // A move creates no piece other than the promoted one.

  /** The contents of the 64 squares. */
  ghost function Contents(b: Grid): set<Square>
    requires WellFormed(b)
  {
    set r, c | 0 <= r < 8 && 0 <= c < 8 :: At(b, Pos(r, c))
  }

  lemma ContentsPut(b: Grid, p: Pos, sq: Square)
    requires WellFormed(b) && RowOnBoard(p.row)
    ensures Contents(Put(b, p, sq)) <= Contents(b) + {sq}
  {
    var b' := Put(b, p, sq);
    forall x | x in Contents(b') ensures x in Contents(b) + {sq} {
      var r, c :| 0 <= r < 8 && 0 <= c < 8 && At(b', Pos(r, c)) == x;
      if Pos(r, c) != p {
        assert At(b, Pos(r, c)) == x;
      }
    }
  }

  lemma InContents(b: Grid, q: Pos)
    requires WellFormed(b) && OnBoard(q)
    ensures At(b, q) in Contents(b)
  {
    assert q == Pos(q.row, q.col);
  }

  /** Every square of the result is empty, holds a piece that was already on
      the board, or holds the promoted piece. */
  lemma MakeMoveCreatesNothing(b: Grid, from: Pos, to: Pos, rights: CastlingRights, ep: Option<Pos>,
                               roles: RoleMap, promo: Promotion)
    requires WellFormed(b) && OnBoard(from) && RowOnBoard(to.row)
    ensures Contents(MakeMove(b, from, to, rights, ep, roles, promo).board)
         <= Contents(b) + {None} + (if At(b, from).Some? then {Some(Piece(promo, At(b, from).value.player))} else {})
  {
    var piece := At(b, from);
    var extra := if piece.Some? then {Some(Piece(promo, piece.value.player))} else {};
    var b1 := RemovePassedPawn(b, from, to, ep, roles);
    ContentsPut(b, Pos(from.row, to.col), None);
    assert Contents(b1) <= Contents(b) + {None};
    InContents(b, from);
    var placed := Put(b1, to, piece);
    ContentsPut(b1, to, piece);
    var moved := Put(placed, from, None);
    ContentsPut(placed, from, None);
    assert Contents(moved) <= Contents(b) + {None};
    if Promotes(piece, to, roles) {
      ContentsPut(moved, to, Some(Piece(promo, piece.value.player)));
    }
    var b2 := Land(b1, piece, from, to, roles, promo);
    assert Contents(b2) <= Contents(b) + {None} + extra;
    if Castling(piece, from, to, roles) {
      var home := RookHome(from, to);
      InContents(b2, home);
      ContentsPut(b2, RookLanding(from, to), At(b2, home));
      ContentsPut(Put(b2, RookLanding(from, to), At(b2, home)), home, None);
    }
  }

  lemma NoKingAppears(b: Grid, b': Grid, extra: set<Square>, pl: Player)
    requires WellFormed(b) && WellFormed(b')
    requires Contents(b') <= Contents(b) + {None} + extra
    requires forall x :: x in extra ==> !IsKingOf(x, pl)
    requires FindKing(b, pl).None?
    ensures FindKing(b', pl).None?
  {
    forall q | OnBoard(q) ensures !IsKingOf(At(b', q), pl) {
      InContents(b', q);
    }
  }

  /** A move never puts a king of `pl` on a board that had none. */
  lemma MakeMoveAddsNoKing(b: Grid, from: Pos, to: Pos, rights: CastlingRights, ep: Option<Pos>,
                           roles: RoleMap, promo: Promotion, pl: Player)
    requires WellFormed(b) && OnBoard(from) && RowOnBoard(to.row)
    requires FindKing(b, pl).None?
    ensures FindKing(MakeMove(b, from, to, rights, ep, roles, promo).board, pl).None?
  {
    var b' := MakeMove(b, from, to, rights, ep, roles, promo).board;
    MakeMoveCreatesNothing(b, from, to, rights, ep, roles, promo);
    var promoted := if At(b, from).Some? then {Some(Piece(promo, At(b, from).value.player))} else {};
    NoKingAppears(b, b', promoted, pl);
  }

  // What lands where.

  /** Outside castling, the destination receives the moving piece, or its
      promotion when a pawn-role piece reaches row 0 or 7, and the origin is
      emptied. */
  lemma MakeMoveLands(b: Grid, from: Pos, to: Pos, rights: CastlingRights, ep: Option<Pos>,
                      roles: RoleMap, promo: Promotion)
    requires WellFormed(b) && OnBoard(from) && OnBoard(to) && from != to
    requires !Castling(At(b, from), from, to, roles)
    ensures var r := MakeMove(b, from, to, rights, ep, roles, promo).board;
      && At(r, from) == None
      && At(r, to) == if Promotes(At(b, from), to, roles)
                      then Some(Piece(promo, At(b, from).value.player))
                      else At(b, from)
  {
  }

  /** King-side castling from column 4 puts the king on column 6 and moves
      the corner's content to column 5. */
  lemma KingSideCastle(b: Grid, from: Pos, rights: CastlingRights, ep: Option<Pos>,
                       roles: RoleMap, promo: Promotion)
    requires WellFormed(b) && OnBoard(from) && from.col == 4 && HasRole(At(b, from), roles, King)
    ensures var r := MakeMove(b, from, Pos(from.row, 6), rights, ep, roles, promo).board;
      && At(r, Pos(from.row, 6)) == At(b, from)
      && At(r, Pos(from.row, 5)) == At(b, Pos(from.row, 7))
      && At(r, Pos(from.row, 7)) == None
      && At(r, from) == None
  {
  }

  /** Queen-side castling from column 4 puts the king on column 2 and moves
      the corner's content to column 3. */
  lemma QueenSideCastle(b: Grid, from: Pos, rights: CastlingRights, ep: Option<Pos>,
                        roles: RoleMap, promo: Promotion)
    requires WellFormed(b) && OnBoard(from) && from.col == 4 && HasRole(At(b, from), roles, King)
    ensures var r := MakeMove(b, from, Pos(from.row, 2), rights, ep, roles, promo).board;
      && At(r, Pos(from.row, 2)) == At(b, from)
      && At(r, Pos(from.row, 3)) == At(b, Pos(from.row, 0))
      && At(r, Pos(from.row, 0)) == None
      && At(r, from) == None
  {
  }

  /** Castling rights only ever weaken, only the mover's change, and they
      change exactly as the moving piece's role dictates: a king-role move
      clears both flags, a rook-role move from a corner column clears that
      side's flag and keeps the other, and no other move changes them. */
  lemma MakeMoveRights(b: Grid, from: Pos, to: Pos, rights: CastlingRights, ep: Option<Pos>,
                       roles: RoleMap, promo: Promotion)
    requires WellFormed(b) && OnBoard(from) && RowOnBoard(to.row)
    ensures var r := MakeMove(b, from, to, rights, ep, roles, promo).rights;
      && NoStronger(r.white, rights.white) && NoStronger(r.black, rights.black)
      && (At(b, from).None? ==> r == rights)
      && (At(b, from).Some? ==> r.Of(Opponent(At(b, from).value.player)) == rights.Of(Opponent(At(b, from).value.player)))
      && (HasRole(At(b, from), roles, King) ==> !r.Of(At(b, from).value.player).kingSide && !r.Of(At(b, from).value.player).queenSide)
      && (HasRole(At(b, from), roles, Rook) && from.col == 0 ==>
            r.Of(At(b, from).value.player) == rights.Of(At(b, from).value.player).(queenSide := false))
      && (HasRole(At(b, from), roles, Rook) && from.col == 7 ==>
            r.Of(At(b, from).value.player) == rights.Of(At(b, from).value.player).(kingSide := false))
      && (r != rights ==>
            (HasRole(At(b, from), roles, King) || (HasRole(At(b, from), roles, Rook) && (from.col == 0 || from.col == 7))))
  {
  }

  /** Two promotion choices lead to boards that differ at most on `to`,
      where each holds the mover's promoted piece. */
  lemma PromotionChoiceLocal(b: Grid, from: Pos, to: Pos, rights: CastlingRights, ep: Option<Pos>,
                             roles: RoleMap, p1: Promotion, p2: Promotion, q: Pos)
    requires WellFormed(b) && OnBoard(from) && RowOnBoard(to.row) && OnBoard(q) && At(b, from).Some?
    ensures var b1 := MakeMove(b, from, to, rights, ep, roles, p1).board;
      var b2 := MakeMove(b, from, to, rights, ep, roles, p2).board;
      || At(b1, q) == At(b2, q)
      || (q == to
          && At(b1, q) == Some(Piece(p1, At(b, from).value.player))
          && At(b2, q) == Some(Piece(p2, At(b, from).value.player)))
  {
    var piece := At(b, from);
    if Promotes(piece, to, roles) {
      assert !Castling(piece, from, to, roles);
    }
  }
}

=== FILE: legality.dfy ===
/** The legality filter and the game-end tests: a move is legal when it is a
    pseudo-legal move after which the mover's king is not in check. */
module Legality {
  import opened Results
  import opened Chessboard
  import opened Roles
  import opened Moves
  import opened Executor
  import opened Check

  /** `a` is `b` with some elements left out, order kept. */
  predicate IsSubsequence<T(==)>(a: seq<T>, b: seq<T>)
    decreases |b|
  {
    a == [] || (|b| > 0 && ((a[0] == b[0] && IsSubsequence(a[1..], b[1..])) || IsSubsequence(a, b[1..])))
  }

  /** Keep the elements `keep` accepts, in order. Every element is tested;
      one throwing test makes the whole filter throw. */
  function Filter<T(==,!new)>(xs: seq<T>, keep: T --> Outcome<bool>): (r: Outcome<seq<T>>)
    requires forall x :: x in xs ==> keep.requires(x)
    ensures r.Ok? ==> IsSubsequence(r.value, xs)
    ensures r.Ok? ==> forall x :: x in r.value <==> x in xs && keep(x) == Ok(true)
    ensures r.Thrown? <==> exists i :: 0 <= i < |xs| && keep(xs[i]).Thrown?
    decreases |xs|
  {
    if xs == [] then Ok([])
    else
      var t := keep(xs[0]);
      var rest := Filter(xs[1..], keep);
      assert forall x :: x in xs <==> x == xs[0] || x in xs[1..];
      assert forall i :: 0 < i < |xs| ==> xs[i] == xs[1..][i - 1];
      if t.Thrown? || rest.Thrown? then Thrown
      else Ok(if t.value then [xs[0]] + rest.value else rest.value)
  }

  /** When `keep` accepts every element the filter returns them all. */
  lemma {:induction false} FilterKeepsAll<T(!new)>(xs: seq<T>, keep: T --> Outcome<bool>)
    requires forall x :: x in xs ==> keep.requires(x) && keep(x) == Ok(true)
    ensures Filter(xs, keep) == Ok(xs)
    decreases |xs|
  {
    if xs != [] {
      assert xs[0] in xs;
      FilterKeepsAll(xs[1..], keep);
      assert [xs[0]] + xs[1..] == xs;
    }
  }

  /** Two tests that agree on every element filter alike. */
  lemma {:induction false} FilterSameTests<T(!new)>(xs: seq<T>, keep1: T --> Outcome<bool>, keep2: T --> Outcome<bool>)
    requires forall x :: x in xs ==> keep1.requires(x) && keep2.requires(x) && keep1(x) == keep2(x)
    ensures Filter(xs, keep1) == Filter(xs, keep2)
    decreases |xs|
  {
    if xs != [] {
      assert xs[0] in xs;
      assert forall x :: x in xs[1..] ==> x in xs;
      FilterSameTests(xs[1..], keep1, keep2);
    }
  }

  /** The engine's speculative test of a move: apply it and ask whether the
      mover's king is then in check. */
  function TestMove(b: Grid, from: Pos, m: Pos, pl: Player, rights: CastlingRights,
                    ep: Option<Pos>, roles: RoleMap, promo: Promotion): Outcome<bool>
    requires WellFormed(b) && OnBoard(from) && RowOnBoard(m.row)
  {
    IsCheck(MakeMove(b, from, m, rights, ep, roles, promo).board, pl, roles)
  }

  /** The move from `from` to `m` leaves `pl`'s king unattacked. */
  ghost predicate KeepsKingSafe(b: Grid, from: Pos, m: Pos, pl: Player, rights: CastlingRights,
                                ep: Option<Pos>, roles: RoleMap, promo: Promotion)
    requires WellFormed(b) && OnBoard(from) && RowOnBoard(m.row)
  {
    TestMove(b, from, m, pl, rights, ep, roles, promo) == Ok(false)
  }

  /** The filter's predicate for the piece on `from`: keep a move when the
      test finds no check. */
  function SafetyTest(b: Grid, from: Pos, pl: Player, rights: CastlingRights,
                      ep: Option<Pos>, roles: RoleMap, promo: Promotion): Pos --> Outcome<bool>
    requires WellFormed(b) && OnBoard(from)
  {
    (m: Pos) requires RowOnBoard(m.row) =>
      match TestMove(b, from, m, pl, rights, ep, roles, promo)
      case Thrown => Thrown
      case Ok(inCheck) => Ok(!inCheck)
  }

  /** The legal moves of the piece on `pos`: its pseudo-legal moves, filtered
      by the check test on the board each one produces. */
  function LegalMoves(b: Grid, pos: Pos, roles: RoleMap, ep: Option<Pos>, rights: CastlingRights,
                      promo: Promotion): (r: Outcome<seq<Pos>>)
    requires WellFormed(b) && OnBoard(pos)
    ensures At(b, pos).None? ==> r == Ok([])
    ensures r.Ok? ==> PseudoMoves(b, pos, roles, ep, rights).Ok?
    ensures r.Ok? ==> IsSubsequence(r.value, PseudoMoves(b, pos, roles, ep, rights).value)
    ensures StuckPawn(b, pos, roles) ==> r.Thrown?
  {
    match PseudoMoves(b, pos, roles, ep, rights)
    case Thrown => Thrown
    case Ok(ms) =>
      if At(b, pos).None? then Ok([])
      else Filter(ms, SafetyTest(b, pos, At(b, pos).value.player, rights, ep, roles, promo))
  }

  /** A legal move is a generated move after which the mover's king is safe,
      and every such move is legal. */
  lemma LegalMovesMembers(b: Grid, pos: Pos, roles: RoleMap, ep: Option<Pos>, rights: CastlingRights,
                          promo: Promotion, m: Pos)
    requires WellFormed(b) && OnBoard(pos) && At(b, pos).Some?
    requires LegalMoves(b, pos, roles, ep, rights, promo).Ok?
    ensures m in LegalMoves(b, pos, roles, ep, rights, promo).value <==>
      && m in PseudoMoves(b, pos, roles, ep, rights).value
      && KeepsKingSafe(b, pos, m, At(b, pos).value.player, rights, ep, roles, promo)
  {
  }

  /** Generating legal moves throws exactly when the piece is a stuck pawn or
      the check test of one of its moves throws. */
  lemma LegalMovesThrow(b: Grid, pos: Pos, roles: RoleMap, ep: Option<Pos>, rights: CastlingRights,
                        promo: Promotion)
    requires WellFormed(b) && OnBoard(pos) && At(b, pos).Some? && !StuckPawn(b, pos, roles)
    ensures LegalMoves(b, pos, roles, ep, rights, promo).Thrown? <==>
      exists m :: m in PseudoMoves(b, pos, roles, ep, rights).value &&
        TestMove(b, pos, m, At(b, pos).value.player, rights, ep, roles, promo).Thrown?
  {
    var pl := At(b, pos).value.player;
    var ms := PseudoMoves(b, pos, roles, ep, rights).value;
    var keep := SafetyTest(b, pos, pl, rights, ep, roles, promo);
    assert LegalMoves(b, pos, roles, ep, rights, promo) == Filter(ms, keep);
    forall m | m in ms ensures keep(m).Thrown? <==> TestMove(b, pos, m, pl, rights, ep, roles, promo).Thrown? {
    }
    if exists i :: 0 <= i < |ms| && keep(ms[i]).Thrown? {
      var i :| 0 <= i < |ms| && keep(ms[i]).Thrown?;
      assert ms[i] in ms;
    }
  }

  /** The filter's test of one move does not depend on the promotion type. */
  lemma SafetyTestPromoFree(b: Grid, pos: Pos, pl: Player, rights: CastlingRights, ep: Option<Pos>,
                            roles: RoleMap, p1: Promotion, p2: Promotion, m: Pos)
    requires WellFormed(b) && OnBoard(pos) && OwnedBy(b, pos, pl) && RowOnBoard(m.row)
    ensures SafetyTest(b, pos, pl, rights, ep, roles, p1)(m) == SafetyTest(b, pos, pl, rights, ep, roles, p2)(m)
  {
    var t1 := TestMove(b, pos, m, pl, rights, ep, roles, p1);
    var t2 := TestMove(b, pos, m, pl, rights, ep, roles, p2);
    PromotionChoiceIrrelevant(b, pos, m, pl, rights, ep, roles, p1, p2);
    assert SafetyTest(b, pos, pl, rights, ep, roles, p1)(m) == if t1.Thrown? then Thrown else Ok(!t1.value);
    assert SafetyTest(b, pos, pl, rights, ep, roles, p2)(m) == if t2.Thrown? then Thrown else Ok(!t2.value);
  }

  /** The legal-move list does not depend on the promotion type: drawing one
      type for every speculative move, or a fresh one for each, gives the
      same list in the same order. */
  lemma LegalMovesPromoFree(b: Grid, pos: Pos, roles: RoleMap, ep: Option<Pos>, rights: CastlingRights,
                            p1: Promotion, p2: Promotion)
    requires WellFormed(b) && OnBoard(pos)
    ensures LegalMoves(b, pos, roles, ep, rights, p1) == LegalMoves(b, pos, roles, ep, rights, p2)
  {
    var ps := PseudoMoves(b, pos, roles, ep, rights);
    if ps.Ok? && At(b, pos).Some? {
      var pl := At(b, pos).value.player;
      var keep1 := SafetyTest(b, pos, pl, rights, ep, roles, p1);
      var keep2 := SafetyTest(b, pos, pl, rights, ep, roles, p2);
      forall m | m in ps.value ensures keep1.requires(m) && keep2.requires(m) && keep1(m) == keep2(m) {
        SafetyTestPromoFree(b, pos, pl, rights, ep, roles, p1, p2, m);
      }
      FilterSameTests(ps.value, keep1, keep2);
    }
  }

  /** Whether `pl` may move from `from` to `to`. After finding `to` among the
      legal moves the engine applies the move once more and repeats the check
      test. */
  function IsValidMove(b: Grid, from: Pos, to: Pos, pl: Player, roles: RoleMap, ep: Option<Pos>,
                       rights: CastlingRights, promo: Promotion): (r: Outcome<bool>)
    requires WellFormed(b) && OnBoard(from)
    ensures !OwnedBy(b, from, pl) ==> r == Ok(false)
    ensures r == Ok(true) <==>
      && OwnedBy(b, from, pl)
      && LegalMoves(b, from, roles, ep, rights, promo).Ok?
      && to in LegalMoves(b, from, roles, ep, rights, promo).value
    ensures r.Thrown? <==> OwnedBy(b, from, pl) && LegalMoves(b, from, roles, ep, rights, promo).Thrown?
  {
    if !OwnedBy(b, from, pl) then Ok(false)
    else
      var legal := LegalMoves(b, from, roles, ep, rights, promo);
      if legal.Thrown? then Thrown
      else if to !in legal.value then Ok(false)
      else
        LegalMovesMembers(b, from, roles, ep, rights, promo, to);
        var t := TestMove(b, from, to, pl, rights, ep, roles, promo);
        if t.Thrown? then Thrown else Ok(!t.value)
  }

  /** The check test of a move by `pl` does not depend on the promotion
      type: the promoted piece is `pl`'s own and never a king. */
  lemma PromotionChoiceIrrelevant(b: Grid, from: Pos, to: Pos, pl: Player, rights: CastlingRights,
                                  ep: Option<Pos>, roles: RoleMap, p1: Promotion, p2: Promotion)
    requires WellFormed(b) && OnBoard(from) && RowOnBoard(to.row) && OwnedBy(b, from, pl)
    ensures TestMove(b, from, to, pl, rights, ep, roles, p1) == TestMove(b, from, to, pl, rights, ep, roles, p2)
  {
    var b1 := MakeMove(b, from, to, rights, ep, roles, p1).board;
    var b2 := MakeMove(b, from, to, rights, ep, roles, p2).board;
    forall q | OnBoard(q)
      ensures Holder(At(b1, q)) == Holder(At(b2, q))
      ensures OwnedBy(b1, q, Opponent(pl)) ==> At(b1, q) == At(b2, q)
      ensures IsKingOf(At(b1, q), pl) == IsKingOf(At(b2, q), pl)
    {
      PromotionChoiceLocal(b, from, to, rights, ep, roles, p1, p2, q);
    }
    IsCheckSameHolders(b1, b2, pl, roles);
  }

  /** `pl` has a piece on `src` with at least one legal move. */
  ghost predicate CanMoveFrom(b: Grid, src: Pos, pl: Player, roles: RoleMap, ep: Option<Pos>,
                              rights: CastlingRights, promo: Promotion)
    requires WellFormed(b) && OnBoard(src)
  {
    var vs := LegalMoves(b, src, roles, ep, rights, promo);
    OwnedBy(b, src, pl) && vs.Ok? && |vs.value| > 0
  }

  /** The scan of squares i..63 for a piece of `pl` with a legal move; a
      throwing move generation aborts the scan. */
  function HasLegalMovesFrom(b: Grid, pl: Player, roles: RoleMap, ep: Option<Pos>,
                             rights: CastlingRights, promo: Promotion, i: nat): Outcome<bool>
    requires WellFormed(b) && i <= 64
    decreases 64 - i
  {
    if i == 64 then Ok(false)
    else
      var src := SquareAt(i);
      if OwnedBy(b, src, pl) then
        match LegalMoves(b, src, roles, ep, rights, promo)
        case Thrown => Thrown
        case Ok(valid) =>
          if |valid| > 0 then Ok(true) else HasLegalMovesFrom(b, pl, roles, ep, rights, promo, i + 1)
      else HasLegalMovesFrom(b, pl, roles, ep, rights, promo, i + 1)
  }

  /** A true scan has found a square of `pl` with a legal move. */
  lemma {:induction false} HasLegalMovesFromFound(b: Grid, pl: Player, roles: RoleMap, ep: Option<Pos>,
                                                  rights: CastlingRights, promo: Promotion, i: nat)
    requires WellFormed(b) && i <= 64
    requires HasLegalMovesFrom(b, pl, roles, ep, rights, promo, i) == Ok(true)
    ensures exists q :: OnBoard(q) && i <= IndexOf(q) && CanMoveFrom(b, q, pl, roles, ep, rights, promo)
    decreases 64 - i
  {
    var src := SquareAt(i);
    IndexSquare(i);
    var valid := LegalMoves(b, src, roles, ep, rights, promo);
    if OwnedBy(b, src, pl) && valid.Ok? && |valid.value| > 0 {
      assert CanMoveFrom(b, src, pl, roles, ep, rights, promo);
    } else {
      assert HasLegalMovesFrom(b, pl, roles, ep, rights, promo, i + 1) == Ok(true);
      HasLegalMovesFromFound(b, pl, roles, ep, rights, promo, i + 1);
    }
  }

  /** A false scan has found every square of `pl` without a legal move. */
  lemma {:induction false} HasLegalMovesFromNone(b: Grid, pl: Player, roles: RoleMap, ep: Option<Pos>,
                                                 rights: CastlingRights, promo: Promotion, i: nat)
    requires WellFormed(b) && i <= 64
    requires HasLegalMovesFrom(b, pl, roles, ep, rights, promo, i) == Ok(false)
    ensures forall q :: OnBoard(q) && i <= IndexOf(q) && OwnedBy(b, q, pl) ==>
      LegalMoves(b, q, roles, ep, rights, promo) == Ok([])
    decreases 64 - i
  {
    if i < 64 {
      var src := SquareAt(i);
      IndexSquare(i);
      assert OwnedBy(b, src, pl) ==> LegalMoves(b, src, roles, ep, rights, promo) == Ok([]);
      assert HasLegalMovesFrom(b, pl, roles, ep, rights, promo, i + 1) == Ok(false);
      HasLegalMovesFromNone(b, pl, roles, ep, rights, promo, i + 1);
      forall q | OnBoard(q) && i <= IndexOf(q) && OwnedBy(b, q, pl)
        ensures LegalMoves(b, q, roles, ep, rights, promo) == Ok([])
      {
        if IndexOf(q) == i {
          SquareIndex(q);
        }
      }
    }
  }

  function HasLegalMoves(b: Grid, pl: Player, roles: RoleMap, ep: Option<Pos>,
                         rights: CastlingRights, promo: Promotion): (r: Outcome<bool>)
    requires WellFormed(b)
    ensures r == Ok(true) ==> exists q :: OnBoard(q) && CanMoveFrom(b, q, pl, roles, ep, rights, promo)
    ensures r == Ok(false) ==> forall q :: OnBoard(q) && OwnedBy(b, q, pl) ==>
      LegalMoves(b, q, roles, ep, rights, promo) == Ok([])
  {
    var r := HasLegalMovesFrom(b, pl, roles, ep, rights, promo, 0);
    if r == Ok(true) then
      HasLegalMovesFromFound(b, pl, roles, ep, rights, promo, 0);
      r
    else if r == Ok(false) then
      HasLegalMovesFromNone(b, pl, roles, ep, rights, promo, 0);
      r
    else r
  }

  /** In check with no legal move. The engine tests check first and skips the
      move search when there is none. */
  function IsCheckmate(b: Grid, pl: Player, roles: RoleMap, ep: Option<Pos>,
                       rights: CastlingRights, promo: Promotion): (r: Outcome<bool>)
    requires WellFormed(b)
    ensures r == Ok(true) ==> InCheck(b, pl, roles) && HasLegalMoves(b, pl, roles, ep, rights, promo) == Ok(false)
    ensures r == Ok(false) ==> !InCheck(b, pl, roles) || HasLegalMoves(b, pl, roles, ep, rights, promo) == Ok(true)
  {
    var check := IsCheck(b, pl, roles);
    if check.Thrown? then Thrown
    else if !check.value then Ok(false)
    else
      var canMove := HasLegalMoves(b, pl, roles, ep, rights, promo);
      if canMove.Thrown? then Thrown else Ok(!canMove.value)
  }

  /** Not in check and no legal move. */
  function IsStalemate(b: Grid, pl: Player, roles: RoleMap, ep: Option<Pos>,
                       rights: CastlingRights, promo: Promotion): (r: Outcome<bool>)
    requires WellFormed(b)
    ensures r == Ok(true) ==> !InCheck(b, pl, roles) && HasLegalMoves(b, pl, roles, ep, rights, promo) == Ok(false)
    ensures r == Ok(false) ==> InCheck(b, pl, roles) || HasLegalMoves(b, pl, roles, ep, rights, promo) == Ok(true)
  {
    var check := IsCheck(b, pl, roles);
    if check.Thrown? then Thrown
    else if check.value then
      assert InCheck(b, pl, roles);
      Ok(false)
    else
      var canMove := HasLegalMoves(b, pl, roles, ep, rights, promo);
      if canMove.Thrown? then Thrown else Ok(!canMove.value)
  }

  /** The game-end tests throw only where the engine's do: when the check
      test throws, or when the move search they reach throws. The check test
      decides whether the move search is reached at all. */
  lemma GameEndAnswers(b: Grid, pl: Player, roles: RoleMap, ep: Option<Pos>,
                       rights: CastlingRights, promo: Promotion)
    requires WellFormed(b)
    ensures IsCheckmate(b, pl, roles, ep, rights, promo).Thrown? <==>
      IsCheck(b, pl, roles).Thrown? || (IsCheck(b, pl, roles) == Ok(true) && HasLegalMoves(b, pl, roles, ep, rights, promo).Thrown?)
    ensures IsStalemate(b, pl, roles, ep, rights, promo).Thrown? <==>
      IsCheck(b, pl, roles).Thrown? || (IsCheck(b, pl, roles) == Ok(false) && HasLegalMoves(b, pl, roles, ep, rights, promo).Thrown?)
  {
  }

  /** A position is never both checkmate and stalemate, and either one means
      the player has no legal move anywhere on the board. */
  lemma GameEndExclusive(b: Grid, pl: Player, roles: RoleMap, ep: Option<Pos>,
                         rights: CastlingRights, promo: Promotion)
    requires WellFormed(b)
    ensures !(IsCheckmate(b, pl, roles, ep, rights, promo) == Ok(true) && IsStalemate(b, pl, roles, ep, rights, promo) == Ok(true))
    ensures IsCheckmate(b, pl, roles, ep, rights, promo) == Ok(true) || IsStalemate(b, pl, roles, ep, rights, promo) == Ok(true) ==>
      forall q :: OnBoard(q) && OwnedBy(b, q, pl) ==>
        LegalMoves(b, q, roles, ep, rights, promo) == Ok([])
  {
  }

  /** A rook-role piece alone at (0, 0) has 14 legal moves: with no king of
      its colour on the board, no move can leave one in check. */
  lemma LoneRookLegalMoves(b: Grid, roles: RoleMap, ep: Option<Pos>, rights: CastlingRights, promo: Promotion)
    requires WellFormed(b) && AloneInCorner(b)
    requires At(b, Pos(0, 0)).Some? && At(b, Pos(0, 0)).value.kind != King
    requires roles.Of(At(b, Pos(0, 0)).value.kind) == Rook
    ensures LegalMoves(b, Pos(0, 0), roles, ep, rights, promo).Ok?
    ensures |LegalMoves(b, Pos(0, 0), roles, ep, rights, promo).value| == 14
  {
    var o := Pos(0, 0);
    var pl := At(b, o).value.player;
    var ms := RookMoves(b, o, pl);
    assert PseudoMoves(b, o, roles, ep, rights) == Ok(ms);
    assert FindKing(b, pl).None? by {
      forall q | OnBoard(q) ensures !IsKingOf(At(b, q), pl) {
        if q != o {
          assert At(b, q).None?;
        }
      }
    }
    var keep := SafetyTest(b, o, pl, rights, ep, roles, promo);
    forall m | m in ms ensures keep.requires(m) && keep(m) == Ok(true) {
      MakeMoveAddsNoKing(b, o, m, rights, ep, roles, promo, pl);
    }
    FilterKeepsAll(ms, keep);
    RookInCorner(b, pl);
  }
}

=== FILE: moves.dfy ===
/** Pseudo-legal move generation, one generator per movement role. A
    generator only looks at board occupancy; whether the move leaves the
    mover's king attacked is decided by the legality filter. */
module Moves {
  import opened Results
  import opened Chessboard
  import opened Roles

  /** A step or offset on the board. */
  datatype Dir = Dir(dr: int, dc: int)

  predicate IsUnit(d: Dir) {
    -1 <= d.dr <= 1 && -1 <= d.dc <= 1 && d != Dir(0, 0)
  }

  function Next(p: Pos, d: Dir): Pos {
    Pos(p.row + d.dr, p.col + d.dc)
  }

  /** A bound on the squares left before a walk along `d` leaves the board;
      it drops by at least one at every step. */
  function Remaining(p: Pos, d: Dir): int {
    (if d.dr > 0 then 8 - p.row else if d.dr < 0 then p.row + 1 else 0)
    + (if d.dc > 0 then 8 - p.col else if d.dc < 0 then p.col + 1 else 0)
  }

  /** The square is empty or holds a piece of `pl`'s opponent. */
  predicate Enterable(b: Grid, p: Pos, pl: Player)
    requires WellFormed(b)
  {
    OnBoard(p) && !OwnedBy(b, p, pl)
  }

  // Sliding pieces: ray casting.

  /** Squares from `p` on along `d`: every empty square, then the first
      occupied one if it holds an opponent piece. */
  function Walk(b: Grid, pl: Player, p: Pos, d: Dir): (ms: seq<Pos>)
    requires WellFormed(b) && IsUnit(d)
    ensures forall m :: m in ms ==> Enterable(b, m, pl)
    decreases Remaining(p, d)
  {
    if !OnBoard(p) then []
    else match At(b, p)
      case None => [p] + Walk(b, pl, Next(p, d), d)
      case Some(q) => if q.player != pl then [p] else []
  }

  /** The ray cast from `from` (exclusive) along `d`. */
  function Ray(b: Grid, pl: Player, from: Pos, d: Dir): seq<Pos>
    requires WellFormed(b) && IsUnit(d)
  {
    Walk(b, pl, Next(from, d), d)
  }

  predicate AllUnit(ds: seq<Dir>) {
    forall i :: 0 <= i < |ds| ==> IsUnit(ds[i])
  }

  /** The rays along each of `ds`, in order. */
  function Rays(b: Grid, pl: Player, from: Pos, ds: seq<Dir>): (ms: seq<Pos>)
    requires WellFormed(b) && AllUnit(ds)
    ensures forall m :: m in ms ==> Enterable(b, m, pl)
  {
    if ds == [] then [] else Ray(b, pl, from, ds[0]) + Rays(b, pl, from, ds[1..])
  }

  /** A square is in the concatenated rays exactly when it is on one of them. */
  lemma {:induction false} RaysMember(b: Grid, pl: Player, from: Pos, ds: seq<Dir>, m: Pos)
    requires WellFormed(b) && AllUnit(ds)
    ensures m in Rays(b, pl, from, ds) <==> exists i :: 0 <= i < |ds| && m in Ray(b, pl, from, ds[i])
  {
    if ds != [] {
      RaysMember(b, pl, from, ds[1..], m);
      if m in Rays(b, pl, from, ds[1..]) {
        var j :| 0 <= j < |ds[1..]| && m in Ray(b, pl, from, ds[1..][j]);
        assert m in Ray(b, pl, from, ds[j + 1]);
      }
      forall i | 1 <= i < |ds| && m in Ray(b, pl, from, ds[i])
        ensures m in Rays(b, pl, from, ds[1..])
      {
        assert ds[i] == ds[1..][i - 1];
      }
    }
  }

  const RookDirs: seq<Dir> := [Dir(-1, 0), Dir(1, 0), Dir(0, -1), Dir(0, 1)]

  const BishopDirs: seq<Dir> := [Dir(-1, -1), Dir(-1, 1), Dir(1, -1), Dir(1, 1)]

  function RookMoves(b: Grid, pos: Pos, pl: Player): seq<Pos>
    requires WellFormed(b)
  {
    Rays(b, pl, pos, RookDirs)
  }

  function BishopMoves(b: Grid, pos: Pos, pl: Player): seq<Pos>
    requires WellFormed(b)
  {
    Rays(b, pl, pos, BishopDirs)
  }

  /** The rook list followed by the bishop list. */
  function QueenMoves(b: Grid, pos: Pos, pl: Player): seq<Pos>
    requires WellFormed(b)
  {
    RookMoves(b, pos, pl) + BishopMoves(b, pos, pl)
  }

  // An independent description of what a ray reaches.

  /** The square `k` steps from `p` along `d`. */
  function Advance(p: Pos, d: Dir, k: nat): Pos
    decreases k
  {
    if k == 0 then p else Advance(Next(p, d), d, k - 1)
  }

  /** The `k` squares starting at `p` along `d` are on the board and empty. */
  ghost predicate ClearPath(b: Grid, p: Pos, d: Dir, k: nat)
    requires WellFormed(b)
    decreases k
  {
    k == 0 || (OnBoard(p) && At(b, p).None? && ClearPath(b, Next(p, d), d, k - 1))
  }

  /** `m` is `k` steps from `p` along `d`, every square before it is empty,
      and `m` itself is empty or holds an opponent piece. */
  ghost predicate Reaches(b: Grid, pl: Player, p: Pos, d: Dir, k: nat, m: Pos)
    requires WellFormed(b)
  {
    ClearPath(b, p, d, k) && m == Advance(p, d, k) && Enterable(b, m, pl)
  }

  lemma {:induction false} WalkSound(b: Grid, pl: Player, p: Pos, d: Dir, m: Pos)
    requires WellFormed(b) && IsUnit(d)
    requires m in Walk(b, pl, p, d)
    ensures exists k: nat :: Reaches(b, pl, p, d, k, m)
    decreases Remaining(p, d)
  {
    if m == p {
      assert Reaches(b, pl, p, d, 0, m);
    } else {
      WalkSound(b, pl, Next(p, d), d, m);
      var k: nat :| Reaches(b, pl, Next(p, d), d, k, m);
      assert Reaches(b, pl, p, d, k + 1, m);
    }
  }

  lemma {:induction false} WalkComplete(b: Grid, pl: Player, p: Pos, d: Dir, k: nat, m: Pos)
    requires WellFormed(b) && IsUnit(d)
    requires Reaches(b, pl, p, d, k, m)
    ensures m in Walk(b, pl, p, d)
    decreases k
  {
    if k > 0 {
      WalkComplete(b, pl, Next(p, d), d, k - 1, m);
    }
  }

  /** A sliding move lands exactly on the squares reachable along one of the
      directions across empty squares only, stopping on an opponent piece. */
  lemma SlidingMoves(b: Grid, pl: Player, from: Pos, ds: seq<Dir>, m: Pos)
    requires WellFormed(b) && AllUnit(ds)
    ensures m in Rays(b, pl, from, ds)
        <==> exists i, k: nat :: 0 <= i < |ds| && Reaches(b, pl, Next(from, ds[i]), ds[i], k, m)
  {
    RaysMember(b, pl, from, ds, m);
    if m in Rays(b, pl, from, ds) {
      var i :| 0 <= i < |ds| && m in Ray(b, pl, from, ds[i]);
      WalkSound(b, pl, Next(from, ds[i]), ds[i], m);
    }
    if exists i, k: nat :: 0 <= i < |ds| && Reaches(b, pl, Next(from, ds[i]), ds[i], k, m) {
      var i, k: nat :| 0 <= i < |ds| && Reaches(b, pl, Next(from, ds[i]), ds[i], k, m);
      WalkComplete(b, pl, Next(from, ds[i]), ds[i], k, m);
    }
  }

  // Leaping pieces: fixed offsets.

  /** The targets `from + offs[i]`, in order, that are on the board and not
      held by `pl`. */
  function Leaps(b: Grid, pl: Player, from: Pos, offs: seq<Dir>): (ms: seq<Pos>)
    requires WellFormed(b)
    ensures forall m :: m in ms <==>
      exists i :: 0 <= i < |offs| && m == Next(from, offs[i]) && Enterable(b, m, pl)
  {
    if offs == [] then []
    else
      var t := Next(from, offs[0]);
      var rest := Leaps(b, pl, from, offs[1..]);
      assert forall m :: m in rest <==>
          exists i :: 1 <= i < |offs| && m == Next(from, offs[i]) && Enterable(b, m, pl) by {
        forall m | m in rest
          ensures exists i :: 1 <= i < |offs| && m == Next(from, offs[i]) && Enterable(b, m, pl)
        {
          var j :| 0 <= j < |offs[1..]| && m == Next(from, offs[1..][j]) && Enterable(b, m, pl);
          assert offs[1..][j] == offs[j + 1];
        }
        forall m, i | 1 <= i < |offs| && m == Next(from, offs[i]) && Enterable(b, m, pl)
          ensures m in rest
        {
          assert offs[i] == offs[1..][i - 1];
        }
      }
      (if Enterable(b, t, pl) then [t] else []) + rest
  }

  const KnightOffsets: seq<Dir> :=
    [Dir(-2, -1), Dir(-2, 1), Dir(-1, -2), Dir(-1, 2), Dir(1, -2), Dir(1, 2), Dir(2, -1), Dir(2, 1)]

  const KingOffsets: seq<Dir> :=
    [Dir(-1, -1), Dir(-1, 0), Dir(-1, 1), Dir(0, -1), Dir(0, 1), Dir(1, -1), Dir(1, 0), Dir(1, 1)]

  function KnightMoves(b: Grid, pos: Pos, pl: Player): seq<Pos>
    requires WellFormed(b)
  {
    Leaps(b, pl, pos, KnightOffsets)
  }

  // The king: one step in any direction, plus castling.

  /** The castling hops. Only the right flag and the emptiness of the squares
      between king and corner are tested: neither the rook's presence nor
      attacks on the squares crossed, and nothing keeps the destination on the
      board. */
  function Castles(b: Grid, pos: Pos, pl: Player, rights: CastlingRights): (ms: seq<Pos>)
    requires WellFormed(b) && RowOnBoard(pos.row)
    ensures forall m :: m in ms ==> m.row == pos.row && (m.col == pos.col + 2 || m.col == pos.col - 2)
    ensures Pos(pos.row, pos.col + 2) in ms <==>
      && rights.Of(pl).kingSide
      && At(b, Pos(pos.row, pos.col + 1)).None?
      && At(b, Pos(pos.row, pos.col + 2)).None?
    ensures Pos(pos.row, pos.col - 2) in ms <==>
      && rights.Of(pl).queenSide
      && At(b, Pos(pos.row, pos.col - 1)).None?
      && At(b, Pos(pos.row, pos.col - 2)).None?
      && At(b, Pos(pos.row, pos.col - 3)).None?
  {
    var r := pos.row;
    var c := pos.col;
    (if rights.Of(pl).kingSide && At(b, Pos(r, c + 1)).None? && At(b, Pos(r, c + 2)).None?
     then [Pos(r, c + 2)] else [])
    + (if rights.Of(pl).queenSide && At(b, Pos(r, c - 1)).None? && At(b, Pos(r, c - 2)).None?
          && At(b, Pos(r, c - 3)).None?
       then [Pos(r, c - 2)] else [])
  }

  function KingMoves(b: Grid, pos: Pos, pl: Player, rights: CastlingRights): seq<Pos>
    requires WellFormed(b) && RowOnBoard(pos.row)
  {
    Leaps(b, pl, pos, KingOffsets) + Castles(b, pos, pl, rights)
  }

  // The pawn.

  /** Row direction of `pl`'s pawns: white moves toward row 0. */
  function Forward(pl: Player): int {
    if pl == White then -1 else 1
  }

  /** Row from which `pl`'s pawns may advance two squares. */
  function StartRow(pl: Player): int {
    if pl == White then 6 else 1
  }

  /** Row on which `pl`'s pawn must stand to capture en passant. */
  function EnPassantRow(pl: Player): int {
    if pl == White then 3 else 4
  }

  function Abs(x: int): int {
    if x < 0 then -x else x
  }

  function DiagonalCapture(b: Grid, pl: Player, t: Pos): seq<Pos>
    requires WellFormed(b) && RowOnBoard(t.row)
  {
    if OnBoard(t) && At(b, t).Some? && At(b, t).value.player != pl then [t] else []
  }

  /** The en-passant branch fires: a target exists, the pawn stands on its
      en-passant row, beside the target's column, and the target lies on
      `epRow`. */
  predicate EnPassantFires(pos: Pos, pl: Player, ep: Option<Pos>, epRow: int) {
    && ep.Some?
    && pos.row == EnPassantRow(pl)
    && Abs(ep.value.col - pos.col) == 1
    && ep.value.row == epRow
  }

  /** The pawn generator, with the row the en-passant target must lie on
      left as a parameter: the engine as written compares it with the pawn's
      own row. The read of the square ahead is not bounds-checked, so a
      pawn-role piece whose next row is off the board throws. */
  function PawnMovesWith(b: Grid, pos: Pos, pl: Player, ep: Option<Pos>, epRow: int): (r: Outcome<seq<Pos>>)
    requires WellFormed(b) && OnBoard(pos)
    ensures r.Thrown? <==> !RowOnBoard(pos.row + Forward(pl))
    ensures r.Ok? ==> forall m :: m in r.value ==> m.row == pos.row + Forward(pl) || m.row == pos.row + 2 * Forward(pl)
    ensures r.Ok? ==> forall m :: m in r.value ==> RowOnBoard(m.row)
  {
    if !RowOnBoard(pos.row + Forward(pl)) then Thrown
    else Ok(Pushes(b, pos, pl) + Captures(b, pos, pl) + EnPassantStep(pos, pl, ep, epRow))
  }

  /** The single push into an empty square ahead, followed from the start row
      by the double push when the square beyond is empty too. */
  function Pushes(b: Grid, pos: Pos, pl: Player): seq<Pos>
    requires WellFormed(b) && OnBoard(pos) && RowOnBoard(pos.row + Forward(pl))
  {
    var ahead := Pos(pos.row + Forward(pl), pos.col);
    var double := Pos(pos.row + 2 * Forward(pl), pos.col);
    if At(b, ahead).None? then
      [ahead] + (if pos.row == StartRow(pl) && At(b, double).None? then [double] else [])
    else []
  }

  /** The forward-left then forward-right diagonal capture. */
  function Captures(b: Grid, pos: Pos, pl: Player): seq<Pos>
    requires WellFormed(b) && OnBoard(pos) && RowOnBoard(pos.row + Forward(pl))
  {
    var fwd := pos.row + Forward(pl);
    DiagonalCapture(b, pl, Pos(fwd, pos.col - 1)) + DiagonalCapture(b, pl, Pos(fwd, pos.col + 1))
  }

  function EnPassantStep(pos: Pos, pl: Player, ep: Option<Pos>, epRow: int): seq<Pos> {
    if EnPassantFires(pos, pl, ep, epRow) then [Pos(pos.row + Forward(pl), ep.value.col)] else []
  }

  /** The pawn generator as the engine writes it: the en-passant target must
      lie on the pawn's own row. A diagonal step onto an empty square is
      therefore offered only beside a target on the pawn's own row, and never
      onto the target itself. */
  function PawnMovesAsWritten(b: Grid, pos: Pos, pl: Player, ep: Option<Pos>): (r: Outcome<seq<Pos>>)
    requires WellFormed(b) && OnBoard(pos)
    ensures r.Thrown? <==> !RowOnBoard(pos.row + Forward(pl))
    ensures r.Ok? ==> forall m :: m in r.value ==> RowOnBoard(m.row)
    ensures r.Ok? ==> forall m :: m in r.value && m.col != pos.col && At(b, m).None? ==>
      ep.Some? && ep.value.row == pos.row && ep != Some(m)
  {
    var r := PawnMovesWith(b, pos, pl, ep, pos.row);
    if r.Ok? then
      forall m | m in r.value ensures m.col != pos.col && At(b, m).None? ==> ep.Some? && ep.value.row == pos.row && ep != Some(m) {
        PawnMoveShapes(b, pos, pl, ep, pos.row, m);
      }
      r
    else r
  }

  /** The pawn generator with the en-passant test corrected: the target must
      lie on the row the pawn lands on, which is the square the executor
      compares the destination with. A diagonal step onto an empty square is
      then exactly a step onto the target. */
  function PawnMoves(b: Grid, pos: Pos, pl: Player, ep: Option<Pos>): (r: Outcome<seq<Pos>>)
    requires WellFormed(b) && OnBoard(pos)
    ensures r.Thrown? <==> !RowOnBoard(pos.row + Forward(pl))
    ensures r.Ok? ==> forall m :: m in r.value ==> RowOnBoard(m.row)
    ensures r.Ok? ==> forall m :: m in r.value && m.col != pos.col && At(b, m).None? ==>
      ep == Some(m) && pos.row == EnPassantRow(pl)
  {
    var r := PawnMovesWith(b, pos, pl, ep, pos.row + Forward(pl));
    if r.Ok? then
      forall m | m in r.value ensures m.col != pos.col && At(b, m).None? ==> ep == Some(m) && pos.row == EnPassantRow(pl) {
        PawnMoveShapes(b, pos, pl, ep, pos.row + Forward(pl), m);
      }
      r
    else r
  }

  /** Every pawn move is a push into an empty square of the same column, a
      double push from the start row across two empty squares, a forward
      diagonal onto an opponent piece, or the en-passant step. */
  lemma PawnMoveShapes(b: Grid, pos: Pos, pl: Player, ep: Option<Pos>, epRow: int, m: Pos)
    requires WellFormed(b) && OnBoard(pos)
    requires PawnMovesWith(b, pos, pl, ep, epRow).Ok? && m in PawnMovesWith(b, pos, pl, ep, epRow).value
    ensures RowOnBoard(pos.row + Forward(pl))
    ensures
      || (m == Pos(pos.row + Forward(pl), pos.col) && At(b, m).None?)
      || (m == Pos(pos.row + 2 * Forward(pl), pos.col) && pos.row == StartRow(pl)
          && At(b, Pos(pos.row + Forward(pl), pos.col)).None? && At(b, m).None?)
      || (m.row == pos.row + Forward(pl) && Abs(m.col - pos.col) == 1
          && OnBoard(m) && At(b, m).Some? && At(b, m).value.player != pl)
      || (EnPassantFires(pos, pl, ep, epRow) && m == Pos(pos.row + Forward(pl), ep.value.col))
  {
    var fwd := pos.row + Forward(pl);
    var pushes, captures := Pushes(b, pos, pl), Captures(b, pos, pl);
    if m in pushes {
    } else if m in captures {
      var left, right := DiagonalCapture(b, pl, Pos(fwd, pos.col - 1)), DiagonalCapture(b, pl, Pos(fwd, pos.col + 1));
      assert m in left || m in right;
    } else {
      assert m in EnPassantStep(pos, pl, ep, epRow);
    }
  }

  /** Every move of the four shapes is generated: the converse of
      `PawnMoveShapes`. */
  lemma PawnMoveComplete(b: Grid, pos: Pos, pl: Player, ep: Option<Pos>, epRow: int, m: Pos)
    requires WellFormed(b) && OnBoard(pos) && RowOnBoard(pos.row + Forward(pl))
    requires
      || (m == Pos(pos.row + Forward(pl), pos.col) && At(b, m).None?)
      || (m == Pos(pos.row + 2 * Forward(pl), pos.col) && pos.row == StartRow(pl)
          && At(b, Pos(pos.row + Forward(pl), pos.col)).None? && At(b, m).None?)
      || (m.row == pos.row + Forward(pl) && Abs(m.col - pos.col) == 1
          && OnBoard(m) && At(b, m).Some? && At(b, m).value.player != pl)
      || (EnPassantFires(pos, pl, ep, epRow) && m == Pos(pos.row + Forward(pl), ep.value.col))
    ensures PawnMovesWith(b, pos, pl, ep, epRow).Ok? && m in PawnMovesWith(b, pos, pl, ep, epRow).value
  {
  }

  /** The two generators differ only in the en-passant step: they throw on
      the same squares, and a move offered by one and not the other is a
      step from the en-passant row onto the target's column. */
  lemma PawnGeneratorsDiffer(b: Grid, pos: Pos, pl: Player, ep: Option<Pos>, m: Pos)
    requires WellFormed(b) && OnBoard(pos)
    ensures PawnMoves(b, pos, pl, ep).Ok? == PawnMovesAsWritten(b, pos, pl, ep).Ok?
    ensures PawnMoves(b, pos, pl, ep).Ok? && (m in PawnMoves(b, pos, pl, ep).value) != (m in PawnMovesAsWritten(b, pos, pl, ep).value) ==>
      ep.Some? && pos.row == EnPassantRow(pl) && m == Pos(pos.row + Forward(pl), ep.value.col)
  {
  }

  // Dispatch on the role of the piece's type.

  /** A pawn-role piece whose next row is off the board: generating its moves
      throws. */
  predicate StuckPawn(b: Grid, pos: Pos, roles: RoleMap)
    requires WellFormed(b) && OnBoard(pos)
  {
    && At(b, pos).Some?
    && roles.Of(At(b, pos).value.kind) == Pawn
    && !RowOnBoard(pos.row + Forward(At(b, pos).value.player))
  }

  /** The moves of the piece on `pos` by its role, ignoring the safety of its
      own king (the engine's non-filtering mode). */
  function PseudoMoves(b: Grid, pos: Pos, roles: RoleMap, ep: Option<Pos>, rights: CastlingRights): (r: Outcome<seq<Pos>>)
    requires WellFormed(b) && OnBoard(pos)
    ensures At(b, pos).None? ==> r == Ok([])
    ensures r.Thrown? <==> StuckPawn(b, pos, roles)
    ensures r.Ok? ==> forall m :: m in r.value ==> RowOnBoard(m.row)
  {
    match At(b, pos)
    case None => Ok([])
    case Some(piece) =>
      match roles.Of(piece.kind)
      case Pawn => PawnMoves(b, pos, piece.player, ep)
      case Rook => Ok(RookMoves(b, pos, piece.player))
      case Knight => Ok(KnightMoves(b, pos, piece.player))
      case Bishop => Ok(BishopMoves(b, pos, piece.player))
      case Queen => Ok(QueenMoves(b, pos, piece.player))
      case King => Ok(KingMoves(b, pos, piece.player, rights))
  }

  // Generators read only who holds each square.

  lemma SameHoldersAt(b1: Grid, b2: Grid, q: Pos)
    requires WellFormed(b1) && WellFormed(b2) && SameHolders(b1, b2) && RowOnBoard(q.row)
    ensures At(b1, q).None? == At(b2, q).None?
    ensures At(b1, q).Some? ==> At(b1, q).value.player == At(b2, q).value.player
  {
    if OnBoard(q) {
      assert Holder(At(b1, q)) == Holder(At(b2, q));
    }
  }

  lemma {:induction false} WalkSameHolders(b1: Grid, b2: Grid, pl: Player, p: Pos, d: Dir)
    requires WellFormed(b1) && WellFormed(b2) && SameHolders(b1, b2) && IsUnit(d)
    ensures Walk(b1, pl, p, d) == Walk(b2, pl, p, d)
    decreases Remaining(p, d)
  {
    if OnBoard(p) {
      SameHoldersAt(b1, b2, p);
      WalkSameHolders(b1, b2, pl, Next(p, d), d);
    }
  }

  lemma {:induction false} RaysSameHolders(b1: Grid, b2: Grid, pl: Player, from: Pos, ds: seq<Dir>)
    requires WellFormed(b1) && WellFormed(b2) && SameHolders(b1, b2) && AllUnit(ds)
    ensures Rays(b1, pl, from, ds) == Rays(b2, pl, from, ds)
  {
    if ds != [] {
      WalkSameHolders(b1, b2, pl, Next(from, ds[0]), ds[0]);
      RaysSameHolders(b1, b2, pl, from, ds[1..]);
    }
  }

  lemma {:induction false} LeapsSameHolders(b1: Grid, b2: Grid, pl: Player, from: Pos, offs: seq<Dir>)
    requires WellFormed(b1) && WellFormed(b2) && SameHolders(b1, b2)
    ensures Leaps(b1, pl, from, offs) == Leaps(b2, pl, from, offs)
  {
    if offs != [] {
      var t := Next(from, offs[0]);
      if OnBoard(t) {
        SameHoldersAt(b1, b2, t);
      }
      LeapsSameHolders(b1, b2, pl, from, offs[1..]);
    }
  }

  lemma PawnSameHolders(b1: Grid, b2: Grid, pos: Pos, pl: Player, ep: Option<Pos>, epRow: int)
    requires WellFormed(b1) && WellFormed(b2) && SameHolders(b1, b2) && OnBoard(pos)
    ensures PawnMovesWith(b1, pos, pl, ep, epRow) == PawnMovesWith(b2, pos, pl, ep, epRow)
  {
    if RowOnBoard(pos.row + Forward(pl)) {
      PushesSameHolders(b1, b2, pos, pl);
      CapturesSameHolders(b1, b2, pos, pl);
    }
  }

  lemma PushesSameHolders(b1: Grid, b2: Grid, pos: Pos, pl: Player)
    requires WellFormed(b1) && WellFormed(b2) && SameHolders(b1, b2) && OnBoard(pos)
    requires RowOnBoard(pos.row + Forward(pl))
    ensures Pushes(b1, pos, pl) == Pushes(b2, pos, pl)
  {
    SameHoldersAt(b1, b2, Pos(pos.row + Forward(pl), pos.col));
    if pos.row == StartRow(pl) {
      SameHoldersAt(b1, b2, Pos(pos.row + 2 * Forward(pl), pos.col));
    }
  }

  lemma CapturesSameHolders(b1: Grid, b2: Grid, pos: Pos, pl: Player)
    requires WellFormed(b1) && WellFormed(b2) && SameHolders(b1, b2) && OnBoard(pos)
    requires RowOnBoard(pos.row + Forward(pl))
    ensures Captures(b1, pos, pl) == Captures(b2, pos, pl)
  {
    var fwd := pos.row + Forward(pl);
    SameHoldersAt(b1, b2, Pos(fwd, pos.col - 1));
    SameHoldersAt(b1, b2, Pos(fwd, pos.col + 1));
  }

  lemma KingSameHolders(b1: Grid, b2: Grid, pos: Pos, pl: Player, rights: CastlingRights)
    requires WellFormed(b1) && WellFormed(b2) && SameHolders(b1, b2) && OnBoard(pos)
    ensures KingMoves(b1, pos, pl, rights) == KingMoves(b2, pos, pl, rights)
  {
    LeapsSameHolders(b1, b2, pl, pos, KingOffsets);
    SameHoldersAt(b1, b2, Pos(pos.row, pos.col - 3));
    SameHoldersAt(b1, b2, Pos(pos.row, pos.col - 2));
    SameHoldersAt(b1, b2, Pos(pos.row, pos.col - 1));
    SameHoldersAt(b1, b2, Pos(pos.row, pos.col + 1));
    SameHoldersAt(b1, b2, Pos(pos.row, pos.col + 2));
  }

  /** Two boards with the same holders everywhere and the same piece on
      `pos` give that piece the same moves. */
  lemma PseudoMovesSameHolders(b1: Grid, b2: Grid, pos: Pos, roles: RoleMap, ep: Option<Pos>, rights: CastlingRights)
    requires WellFormed(b1) && WellFormed(b2) && SameHolders(b1, b2) && OnBoard(pos)
    requires At(b1, pos) == At(b2, pos)
    ensures PseudoMoves(b1, pos, roles, ep, rights) == PseudoMoves(b2, pos, roles, ep, rights)
  {
    if At(b1, pos).Some? {
      var pl := At(b1, pos).value.player;
      match roles.Of(At(b1, pos).value.kind)
      case Pawn => PawnSameHolders(b1, b2, pos, pl, ep, pos.row + Forward(pl));
      case Rook => RaysSameHolders(b1, b2, pl, pos, RookDirs);
      case Knight => LeapsSameHolders(b1, b2, pl, pos, KnightOffsets);
      case Bishop => RaysSameHolders(b1, b2, pl, pos, BishopDirs);
      case Queen =>
        RaysSameHolders(b1, b2, pl, pos, RookDirs);
        RaysSameHolders(b1, b2, pl, pos, BishopDirs);
      case King => KingSameHolders(b1, b2, pos, pl, rights);
    }
  }

  /** Every move of a rook-, knight-, bishop- or queen-role piece, and every
      one-square king step, lands on the board on a square not held by the
      mover. */
  lemma GeneratedTargetsEnterable(b: Grid, pos: Pos, pl: Player, m: Pos)
    requires WellFormed(b)
    ensures m in RookMoves(b, pos, pl) ==> Enterable(b, m, pl)
    ensures m in BishopMoves(b, pos, pl) ==> Enterable(b, m, pl)
    ensures m in QueenMoves(b, pos, pl) ==> Enterable(b, m, pl)
    ensures m in KnightMoves(b, pos, pl) ==> Enterable(b, m, pl)
    ensures m in Leaps(b, pl, pos, KingOffsets) ==> Enterable(b, m, pl)
  {
  }

  // A rook-role piece alone in a corner.

  /** Every square but (0, 0) is empty. */
  ghost predicate AloneInCorner(b: Grid)
    requires WellFormed(b)
  {
    forall q :: OnBoard(q) && q != Pos(0, 0) ==> At(b, q).None?
  }

  lemma {:induction false} DownTheFile(b: Grid, pl: Player, r: int)
    requires WellFormed(b) && AloneInCorner(b) && 1 <= r <= 8
    ensures |Walk(b, pl, Pos(r, 0), Dir(1, 0))| == 8 - r
    decreases 8 - r
  {
    if r < 8 {
      DownTheFile(b, pl, r + 1);
    }
  }

  lemma {:induction false} AlongTheRank(b: Grid, pl: Player, c: int)
    requires WellFormed(b) && AloneInCorner(b) && 1 <= c <= 8
    ensures |Walk(b, pl, Pos(0, c), Dir(0, 1))| == 8 - c
    decreases 8 - c
  {
    if c < 8 {
      AlongTheRank(b, pl, c + 1);
    }
  }

  lemma FourRays(b: Grid, pl: Player, from: Pos, ds: seq<Dir>)
    requires WellFormed(b) && AllUnit(ds) && |ds| == 4
    ensures |Rays(b, pl, from, ds)| == |Ray(b, pl, from, ds[0])| + |Ray(b, pl, from, ds[1])|
                                     + |Ray(b, pl, from, ds[2])| + |Ray(b, pl, from, ds[3])|
  {
    assert ds[3..][1..] == [];
    assert Rays(b, pl, from, ds[3..]) == Ray(b, pl, from, ds[3]) + [];
    assert ds[2..][1..] == ds[3..];
    assert Rays(b, pl, from, ds[2..]) == Ray(b, pl, from, ds[2]) + Rays(b, pl, from, ds[3..]);
    assert ds[1..][1..] == ds[2..];
    assert Rays(b, pl, from, ds[1..]) == Ray(b, pl, from, ds[1]) + Rays(b, pl, from, ds[2..]);
  }

  /** A rook-role piece alone at (0, 0) has 7 moves along the file and 7
      along the rank. */
  lemma RookInCorner(b: Grid, pl: Player)
    requires WellFormed(b) && AloneInCorner(b)
    ensures |RookMoves(b, Pos(0, 0), pl)| == 14
  {
    FourRays(b, pl, Pos(0, 0), RookDirs);
    DownTheFile(b, pl, 1);
    AlongTheRank(b, pl, 1);
  }
}

=== FILE: results.dfy ===
/** Small failure-carrying datatypes shared by the whole model. */
module Results {

  /** A value that may be absent: an empty square, a king that is not on the
      board, or no en-passant target. */
  datatype Option<+T> = None | Some(value: T)

  /** The result of an engine computation that can abort. `Thrown` stands for
      the TypeError the engine raises when it reads a row that lies outside the
      board (the unguarded forward read of a pawn-role piece on its far rank);
      like an exception it propagates through every caller. */
  datatype Outcome<+T> = Ok(value: T) | Thrown
}

=== FILE: roles.dfy ===
/** Role assignment: which movement behaviour each nominal piece type gets for
    a game, and the promotion draw. The random choices are inputs here. */
module Roles {
  import opened Chessboard

  /** The movement role of each nominal type, one field per type. */
  datatype RoleMap = RoleMap(pawn: Kind, rook: Kind, knight: Kind, bishop: Kind, queen: Kind, king: Kind) {
    function Of(k: Kind): Kind {
      match k
      case Pawn => pawn
      case Rook => rook
      case Knight => knight
      case Bishop => bishop
      case Queen => queen
      case King => king
    }
  }

  /** The five non-king types, in the order the shuffle starts from. */
  const NonKing: seq<Kind> := [Pawn, Rook, Knight, Bishop, Queen]

  /** `s` is a reordering of the five non-king types. A sort with a random
      comparator can produce any order but never loses or duplicates an
      element, so this is all that is known of its output. */
  predicate IsShuffle(s: seq<Kind>) {
    multiset(s) == multiset(NonKing)
  }

  /** The roles of the five non-king types, in type order. */
  function NonKingRoles(r: RoleMap): seq<Kind> {
    [r.pawn, r.rook, r.knight, r.bishop, r.queen]
  }

  /** A role map of the variant: the king keeps king movement and the five
      other types receive a reordering of the five other roles. */
  predicate ValidRoles(r: RoleMap) {
    && r.king == King
    && multiset{r.pawn, r.rook, r.knight, r.bishop, r.queen} == multiset{Pawn, Rook, Knight, Bishop, Queen}
  }

  /** A valid role map lists a shuffle as its non-king roles. */
  lemma ValidRolesShuffle(r: RoleMap)
    ensures ValidRoles(r) <==> r.king == King && IsShuffle(NonKingRoles(r))
  {
    assert multiset(NonKingRoles(r)) == multiset{r.pawn, r.rook, r.knight, r.bishop, r.queen};
    assert multiset(NonKing) == multiset{Pawn, Rook, Knight, Bishop, Queen};
  }

  /** The shuffle's i-th element becomes the role of the i-th non-king type;
      the king keeps king movement. The contract states the mapping through
      the list of non-king roles in type order (`NonKingRoles`). */
  function RandomizeRoles(shuffled: seq<Kind>): (r: RoleMap)
    requires IsShuffle(shuffled)
    ensures r.Of(King) == King
    ensures NonKingRoles(r) == shuffled
    ensures ValidRoles(r)
  {
    ShuffleLength(shuffled);
    var r := RoleMap(shuffled[0], shuffled[1], shuffled[2], shuffled[3], shuffled[4], King);
    assert NonKingRoles(r) == shuffled;
    ValidRolesShuffle(r);
    r
  }

  lemma ShuffleLength(s: seq<Kind>)
    requires IsShuffle(s)
    ensures |s| == 5
  {
    assert |s| == |multiset(s)| == |multiset(NonKing)| == |NonKing|;
  }

  /** Each non-king type occurs once in `NonKing`; the king does not occur. */
  lemma NonKingOnce(k: Kind)
    ensures multiset(NonKing)[k] == if k == King then 0 else 1
  {
  }

  /** A shuffle never holds the king. */
  lemma ShuffleNoKing(s: seq<Kind>, i: int)
    requires IsShuffle(s) && 0 <= i < |s|
    ensures s[i] != King
  {
    NonKingOnce(King);
    assert s[i] in multiset(s);
  }

  /** A shuffle holds no type twice. */
  lemma ShuffleDistinct(s: seq<Kind>, i: int, j: int)
    requires IsShuffle(s) && 0 <= i < j < |s|
    ensures s[i] != s[j]
  {
    assert s == s[..j] + s[j..];
    assert multiset(s) == multiset(s[..j]) + multiset(s[j..]);
    assert s[..j][i] == s[i] && s[j..][0] == s[j];
    NonKingOnce(s[i]);
  }

  /** A shuffle holds every non-king type. */
  lemma ShuffleCovers(s: seq<Kind>, k: Kind)
    requires IsShuffle(s) && k != King
    ensures k in s
  {
    NonKingOnce(k);
    assert k in multiset(s);
  }

  /** Position of a non-king type in `NonKing`. */
  function Slot(k: Kind): (i: int)
    requires k != King
    ensures 0 <= i < 5 && NonKing[i] == k
  {
    match k
    case Pawn => 0
    case Rook => 1
    case Knight => 2
    case Bishop => 3
    case Queen => 4
  }

  /** A non-king type's role is the entry of its slot. */
  lemma OfSlot(r: RoleMap, k: Kind)
    requires k != King
    ensures r.Of(k) == NonKingRoles(r)[Slot(k)]
  {
  }

  /** Under a valid role map the king and only the king moves as a king. */
  lemma OnlyKingMovesAsKing(r: RoleMap, k: Kind)
    requires ValidRoles(r)
    ensures r.Of(k) == King <==> k == King
  {
    if k != King {
      ValidRolesShuffle(r);
      ShuffleNoKing(NonKingRoles(r), Slot(k));
      OfSlot(r, k);
    }
  }

  /** Under a valid role map no two types share a role. */
  lemma RolesInjective(r: RoleMap, k1: Kind, k2: Kind)
    requires ValidRoles(r)
    ensures r.Of(k1) == r.Of(k2) ==> k1 == k2
  {
    OnlyKingMovesAsKing(r, k1);
    OnlyKingMovesAsKing(r, k2);
    if k1 != King && k2 != King {
      var s := NonKingRoles(r);
      ValidRolesShuffle(r);
      OfSlot(r, k1);
      OfSlot(r, k2);
      if Slot(k1) < Slot(k2) {
        ShuffleDistinct(s, Slot(k1), Slot(k2));
      } else if Slot(k2) < Slot(k1) {
        ShuffleDistinct(s, Slot(k2), Slot(k1));
      }
    }
  }

  /** Under a valid role map every role is some type's role. */
  lemma RolesSurjective(r: RoleMap, role: Kind)
    requires ValidRoles(r)
    ensures exists k :: r.Of(k) == role
  {
    if role == King {
      assert r.Of(King) == role;
    } else {
      var s := NonKingRoles(r);
      ValidRolesShuffle(r);
      ShuffleCovers(s, role);
      ListedRoleIsTaken(r, role);
    }
  }

  /** A role listed among the non-king roles is some type's role. */
  lemma ListedRoleIsTaken(r: RoleMap, role: Kind)
    requires role in NonKingRoles(r)
    ensures exists k :: r.Of(k) == role
  {
    if r.pawn == role {
      assert r.Of(Pawn) == role;
    } else if r.rook == role {
      assert r.Of(Rook) == role;
    } else if r.knight == role {
      assert r.Of(Knight) == role;
    } else if r.bishop == role {
      assert r.Of(Bishop) == role;
    } else {
      assert r.Of(Queen) == role;
    }
  }

  /** Every valid role map is produced by a shuffle: the one listing its
      roles in type order. */
  lemma EveryValidMapIsReachable(r: RoleMap)
    requires ValidRoles(r)
    ensures exists s :: IsShuffle(s) && RandomizeRoles(s) == r
  {
    ValidRolesShuffle(r);
    assert RandomizeRoles(NonKingRoles(r)) == r;
  }

  /** The four types a pawn-role piece may be promoted to. */
  type Promotion = k: Kind | k == Rook || k == Knight || k == Bishop || k == Queen witness Queen

  const PromotionChoices: seq<Promotion> := [Rook, Knight, Bishop, Queen]

  /** The promotion draw, given the uniform index in [0, 4) that the engine
      derives from its random number. Its type rules out a pawn and a king,
      so the draw can be passed to the executor as it is. */
  function PromotionPiece(draw: int): Promotion
    requires 0 <= draw < 4
  {
    PromotionChoices[draw]
  }

  /** Distinct draws give distinct types, so a uniform index gives a uniform
      promotion type. */
  lemma PromotionDrawsDistinct(d1: int, d2: int)
    requires 0 <= d1 < 4 && 0 <= d2 < 4
    ensures PromotionPiece(d1) == PromotionPiece(d2) <==> d1 == d2
  {
  }

  /** Every promotion type is the outcome of some draw. */
  lemma EveryPromotionIsDrawn(k: Promotion)
    ensures exists d :: 0 <= d < 4 && PromotionPiece(d) == k
  {
    if k == Rook { assert PromotionPiece(0) == k; }
    else if k == Knight { assert PromotionPiece(1) == k; }
    else if k == Bishop { assert PromotionPiece(2) == k; }
    else { assert PromotionPiece(3) == k; }
  }
}
